=== FILE: README.md ===
# shellpages in Dafny

A model of the core of **shellpages**, a small Python 2 library for console
menus. A program is a set of *pages*. A page has a title, a body, a map from
one-character keys to *options*, an order in which to list those keys, and
transient *messages*. The browser shows the current page, reads a line and
hands it to the page's `process` method. `process` runs the page's *parse
strategy* and returns a key and arguments. The browser then calls the option
bound to that key, unless the key is the `'invalid input'` sentinel.

The model covers two versions of the library:

- the newer `shellpages/shellpages.py`: `Option`, `Page` with its checked
  setters, `add_option`, `remove_option`, the message list, `process` and
  `__str__`, and the browser's display check and dispatch decision;
- the older top-level `shellpages.py`: the `Menu` page stack and how its
  `Option` and `Page` show themselves.

Everything is a pure function over immutable values.

- An operation that can raise returns `Result`: either the new value, or the
  Python exception class with its message (`Errors.PyError`).
- The parse strategy is foreign code. `process` therefore takes what the
  strategy did as an argument (`Dispatch.ParseOutcome`):
  - it returned a triple;
  - it raised `ParseError(m)`;
  - it returned a sequence of some other number of values;
  - it returned a value that cannot be iterated;
  - or it raised some other exception of its own.

  In each case the outcome also carries the messages the strategy added
  through `add_message` while it ran.
- A Dafny `string` stands for a Python 2 byte string, one `char` per byte, so
  the 72, 77 and 79 character limits count bytes.
- An option's function is an opaque number.
- Anything else a page may hold under a key is represented by its string form
  (`Options.Callable`). This is all that `add_option`'s `<...>` check and
  `__str__` look at.
- `str(order)` in the invalid-input message is Python 2's list repr. It is
  modelled character by character, including the choice of quote and the
  escapes, together with a reader that parses it back (`PyRepr`).

Modules:

| file | module | what |
|---|---|---|
| errors.dfy | Errors | exception classes, `Result`, `Maybe` |
| text.dfy | Text | `split('\n')`, the line-length rules, the `^<.+>$` match |
| pyrepr.dfy | PyRepr | Python 2 `repr` of strings and lists of strings, and its reader |
| options.dfy | Options | `Option`, its constructor and string form |
| layout.dfy | Layout | the heading / listing / message layout both `__str__` versions build |
| pages.dfy | Pages | `Page`: setters, constructor, option and message operations, `__str__` |
| unpack.dfy | Unpack | Python 2's unpacking errors and the patterns `process` matches them with |
| dispatch.dfy | Dispatch | `Page.process` and the default strategy |
| browser.dfy | Browser | `_display`, the quit word and `_process`'s dispatch decision |
| menus.dfy | Menus | the older `Menu` page stack |
| legacy.dfy | Legacy | the older `Option.__str__` and `Page.__str__` |
| examples.dfy | Examples | the unit tests' pages, inputs and expected results |

Where a docstring and the code disagree, the model follows the code:

- The body docstring promises lines of at most 77 characters. The code
  accepts up to 79.
- The `add_option` docstring mentions a 79-character limit on the option's
  string. The code never checks it.
- The `process` docstring promises a ValueError when the strategy does not
  return three values, and the code replaces the unpacking error with its own
  `parse method must return 3 values`. Its pattern
  `need more than [12] values* to unpack` misses an empty result, so for `()`
  Python's own `need more than 0 values to unpack` comes through instead
  (`Examples.EmptyResultCase`). It is still a ValueError.
- The same promise fails for an instance of an old-style class: Python 2
  raises `TypeError: iteration over non-sequence`, which names no type and
  matches none of the three patterns, so `process` re-raises that TypeError.
  The model expresses it as `Failed(added, TypeError("iteration over non-sequence"))`
  (`Examples.OldStyleResultCase`).

## Model

| member | source | states |
|---|---|---|
| Options.NewOption | shellpages/shellpages.py:354-392 | construction succeeds exactly when the key has one character and the text at most 72; otherwise the key error comes first, then the text error, with the source's messages |
| Options.ShowOption | shellpages/shellpages.py:419-420 | `[key] text`; its layout and that it determines the option are stated by ShowOptionShape and ShowOptionInjective |
| Options.ShowOptionShape | shellpages/shellpages.py:419-420 | a valid option shows as `[k] text`: 4 more characters than its text, at most 76, never of the `<...>` form |
| Options.ShowOptionInjective | shellpages/shellpages.py:419-420 | the string form of a valid option determines its key and its text |
| Text.Lines | shellpages/shellpages.py:264 | `split('\n')` yields at least one piece and no piece holds a newline |
| Text.JoinLinesOfLines | shellpages/shellpages.py:264 | joining the pieces of `split('\n')` with newlines gives back the text |
| Text.LinesOfJoinLines | shellpages/shellpages.py:264 | splitting newline-free pieces joined with newlines gives back the pieces |
| Text.LinesWithinIffAllWithin | shellpages/shellpages.py:264-267 | the split-based line-length loop accepts a body exactly when no newline-free run is longer than the bound |
| Text.AngleForm | shellpages/shellpages.py:47 | the `^<.+>$` match (also used by `add_option` at line 144), where `$` also matches before a final newline; AngleFormIntro and AngleFormElim state both directions |
| Text.AngleFormIntro | shellpages/shellpages.py:47 | every `<`, one or more non-newline characters, `>`, with an optional final newline, matches `^<.+>$` |
| Text.AngleFormElim | shellpages/shellpages.py:47 | every match is `<`, one or more non-newline characters, `>`, and at most a final newline |
| Text.AngleFormOneLine | shellpages/shellpages.py:144 | a match starts with `<` and has no newline before its last character |
| PyRepr.EscapeChar | shellpages/shellpages.py:205-207 | an escaped character never begins with the enclosing quote |
| PyRepr.StrRepr | shellpages/shellpages.py:205-207 | Python 2's `repr` of an item of the order; ReadStrOfRepr reads it back |
| PyRepr.ListRepr | shellpages/shellpages.py:205-207 | `str(order)`; ReadListOfListRepr reads it back and ListReprInjective follows |
| PyRepr.ParseHexOfHex | shellpages/shellpages.py:205-207 | a `\x` escape's hex digits read back as the code they encode |
| PyRepr.ReadStrOfRepr | shellpages/shellpages.py:205-207 | reading `repr(s)` gives back `s` and leaves what follows unread |
| PyRepr.ReadListOfListRepr | shellpages/shellpages.py:205-207 | reading `str(order)` gives back the order |
| PyRepr.ListReprInjective | shellpages/shellpages.py:205-207 | different orders give different invalid-input messages |
| Pages.SetTitle | shellpages/shellpages.py:241-248 | accepted exactly when the title has no newline and at most 77 characters; each rejection carries its message and changes nothing; validity is kept |
| Pages.SetBody | shellpages/shellpages.py:261-268 | accepted exactly when every line has at most 79 characters; the rejection carries its message; validity is kept |
| Pages.SetOrder | shellpages/shellpages.py:295-301 | accepted exactly when every listed key is an option; duplicates are allowed; validity is kept |
| Pages.AddOption | shellpages/shellpages.py:116-148 | accepted exactly when the key has one character and the value does not show as `<...>`; binds or overwrites that key only; order and messages are untouched; validity is kept |
| Pages.RemoveOption | shellpages/shellpages.py:150-169 | an unknown key is refused with `'k' is not an option`; otherwise the key is unbound and every occurrence leaves the order, the other keys keeping their order, with nothing else changed; validity is kept |
| Pages.RemoveOptionAsWritten | shellpages/shellpages.py:164-169 | as the code is written: the key is unbound and only its first occurrence leaves the order, the keys before and after it keeping their order (one fewer in the multiset) |
| Pages.RemoveOptionAgreesWhenListedOnce | shellpages/shellpages.py:168-169 | when the key is listed at most once, the code as written and the corrected removal agree |
| Pages.Without | shellpages/shellpages.py:168-169 | the corrected order removal drops every occurrence of the key and keeps every other occurrence |
| Pages.RemoveFirst | shellpages/shellpages.py:169 | `list.remove` drops exactly the first occurrence and keeps the rest in order |
| Pages.AddMessage | shellpages/shellpages.py:171-182 | appends one message and changes nothing else |
| Pages.RemoveMessages | shellpages/shellpages.py:184-185 | empties the messages and changes nothing else |
| Pages.NewPage | shellpages/shellpages.py:82-112 | construction succeeds exactly when the title, the body, every option and the order pass their checks; the result is valid, has no messages and holds exactly the given parts; a bad title is reported first |
| Pages.Render | shellpages/shellpages.py:333-343 | `__str__` succeeds exactly when every listed key is bound, and otherwise raises KeyError on the first listed key that is not bound |
| Layout.FirstMissing | shellpages/shellpages.py:339-340 | the first listed key the loop cannot look up: all keys before it are bound |
| Pages.RenderWithMessages | shellpages/shellpages.py:184-185 | the string with messages is the string after `remove_messages` followed by the messages' paragraphs |
| Pages.RenderAddMessage | shellpages/shellpages.py:180-182 | `add_message(m)` appends exactly `\n m \n` to the string |
| Pages.RenderAddUnlistedOption | shellpages/shellpages.py:116-148 | adding an option whose key is not listed leaves the string unchanged |
| Pages.RenderListOneMore | shellpages/shellpages.py:295-301 | listing one more bound key appends exactly that option's line |
| Pages.RemoveOptionKeepsRender | shellpages/shellpages.py:150-169 | after the corrected removal a valid page can still be shown |
| Pages.RenderFitsConsole | shellpages/shellpages.py:241-268 | a valid page whose shown options and messages fit 79 columns renders with no line over 79 characters |
| Pages.RenderNeverAngle | shellpages/shellpages.py:46-48 | a page whose listed options do not show as `<...>` never shows as `<...>` itself |
| Layout.ListingAppend | shellpages/shellpages.py:339-340 | listing a longer order appends the added keys' lines |
| Layout.ListingOnlyListed | shellpages/shellpages.py:339-340 | only the listed keys' string forms matter to the listing |
| Layout.TrailerAppend | shellpages/shellpages.py:341-342 | more messages append their paragraphs |
| Dispatch.Process | shellpages/shellpages.py:187-224 | messages restart from what the strategy added; a ParseError adds its text and returns the sentinel; a wrong number of values is a ValueError, the library's own unless the result was empty; a non-iterable result is always an error, either the library's ValueError or the TypeError itself, and for a name without a quote the library's ValueError exactly when the name has the usual form; the strategy's own TypeError or ValueError is replaced by it when its text reads like an unpacking failure and re-raised otherwise, and any other exception passes through; a bad key is a fatal ValueError; the default sentinel becomes the input when it is a key, else the listed-order message; only messages change |
| Dispatch.DefaultParse | shellpages/shellpages.py:345-346 | the default strategy (also the constructor default at line 83) leaves the lookup to `process`; DefaultProcess states what follows |
| Dispatch.InvalidInputMessage | shellpages/shellpages.py:205-207 | `Invalid input. Please enter an option from ` and `str(order)`; ListReprInjective makes it determine the order |
| Dispatch.Reraised | shellpages/shellpages.py:217-224 | an unpacking-like error becomes `parse method must return 3 values`, any other is re-raised; Process states the cases |
| Unpack.CountError | shellpages/shellpages.py:202 | unpacking a wrong number of values into three names raises ValueError |
| Unpack.NotIterableError | shellpages/shellpages.py:202 | unpacking a new-style value that cannot be iterated raises TypeError naming its type |
| Unpack.CountRecognised | shellpages/shellpages.py:217-223 | the patterns recognise a wrong number of values exactly when the result was not empty |
| Unpack.NotIterableRecognised | shellpages/shellpages.py:217-223 | for a type name without a quote, the patterns recognise a non-iterable result exactly when the name is word characters and dots ending in a word character |
| Unpack.MatchedNameIsTypeName | shellpages/shellpages.py:218 | a type name without a quote that the not-iterable pattern accepts is word characters and dots ending in a word character |
| Unpack.NotEnoughOfMessage | shellpages/shellpages.py:219 | `need more than [12] values* to unpack` matches a too-few message exactly for the counts 1 and 2 |
| Dispatch.ProcessForgetsMessages | shellpages/shellpages.py:201 | messages from before the call never influence it |
| Dispatch.ProcessTwice | shellpages/shellpages.py:187-224 | repeating the same input with the same strategy outcome changes nothing more |
| Dispatch.ProcessKeepsValid | shellpages/shellpages.py:187-224 | `process` keeps a page valid |
| Dispatch.DefaultProcess | shellpages/shellpages.py:200-208 | with the default strategy, the input comes back as the key exactly when it is an option, and then with no message; otherwise the sentinel and the one invalid-input message |
| Dispatch.DefaultProcessKeyIsOption | shellpages/shellpages.py:53-55 | with the default strategy, a returned key other than the sentinel is always bound |
| Dispatch.DefaultRejectionShown | shellpages/shellpages.py:203-216 | after a rejected input the page shows as before plus the invalid-input paragraph |
| Browser.Display | shellpages/shellpages.py:46-49 | a page is shown as its string unless that string matches `^<.+>$`, which raises TypeError |
| Browser.TakeTurn | shellpages/shellpages.py:36-64 | `quit` ends the run before any parsing; otherwise `process` runs; an option is called only for a bound key other than the sentinel, with the returned arguments; the sentinel calls nothing; an unbound key raises KeyError; a TypeError from `process` becomes `Invalid object in the pages dictionary` when its text matches one of the three patterns and is swallowed otherwise; any other error propagates |
| Browser.QuitBeforeParsing | shellpages/shellpages.py:42-43 | the quit word ends the run whatever the strategy would do |
| Browser.NotCallableNamesBadPage | shellpages/shellpages.py:56-64 | any one-line text ending in `is not callable` matches the `.+is not callable` pattern |
| Browser.DefaultTurn | shellpages/shellpages.py:42-55 | with the default strategy on a valid page a turn never fails: it calls the input's option exactly when the input is a key, and otherwise stays |
| Browser.DisplayValidPage | shellpages/shellpages.py:46-49 | the display check never rejects a valid page |
| Menus.NewMenu | shellpages.py:20-22 | a new menu has no pages |
| Menus.Push | shellpages.py:30-42 | a callable becomes the new top with the rest unchanged; anything else is refused with the source's TypeError |
| Menus.Back | shellpages.py:44-50 | removes exactly the top page; an empty stack stays empty |
| Menus.Home | shellpages.py:52-57 | keeps only the first page; no change on a stack of at most one page |
| Menus.Pages | shellpages.py:24-26 | the accessor gives the stack's pages in order |
| Menus.Current | shellpages.py:63-64 | calling the menu calls the top page, or raises IndexError on an empty stack |
| Menus.SliceTo | shellpages.py:50 | Python's `xs[:stop]` is a prefix, and counts a negative stop from the end |
| Menus.PushThenBack | shellpages.py:30-50 | `back` undoes `push` exactly |
| Menus.PushThenCurrent | shellpages.py:30-42 | the pushed page is the one the menu calls next |
| Menus.HomeIdempotent | shellpages.py:52-57 | `home` twice is `home` once |
| Menus.HomeAfterPush | shellpages.py:30-57 | pushing onto a non-empty stack does not change where `home` leads |
| Menus.BackTimes | shellpages.py:44-50 | repeated `back` only shortens the stack, down to empty |
| Menus.BackToHome | shellpages.py:44-57 | going back one time fewer than there are pages is the same as `home` |
| Legacy.RenderLegacy | shellpages.py:138-146 | the older `__str__` succeeds exactly when every listed key is bound, else raises KeyError at the first unbound one |
| Legacy.RenderLegacyAgrees | shellpages.py:138-146 | the older page string equals the newer one for the same heading and order, no messages and options that show alike |
| Legacy.ShowLegacyOptionInjective | shellpages.py:219-220 | `> key - name` determines the key and the name when the key has no space |
| Legacy.ShowLegacyOption | shellpages.py:219-220 | `> key - name`; ShowLegacyOptionInjective states that it determines the option |
| Examples.OptionCase | shellpages/test_shellpages.py:296-334 | option `1`/`Test` is built and shows as `[1] Test` |
| Examples.TestPageBuilt | shellpages/test_shellpages.py:28-35 | the unit tests' page is accepted by the constructor |
| Examples.TestPageShown | shellpages/test_shellpages.py:201-211 | the unit tests' page shows exactly as the test expects |
| Examples.DefaultProcessCase | shellpages/test_shellpages.py:147-154 | input `3` gives the sentinel and `Invalid input. Please enter an option from ['1', '2']`; input `1` gives key `1` and no message |
| Examples.CustomProcessTwo | shellpages/test_shellpages.py:156-180 | a strategy that adds a message and then raises ParseError leaves both messages, in that order |
| Examples.CustomProcessTwoWithArguments | shellpages/test_shellpages.py:156-184 | the strategy's two messages stay and its key comes back |
| Examples.CustomProcessThree | shellpages/test_shellpages.py:186-189 | a key of more than one character is a fatal ValueError |
| Examples.TitleTooLong | shellpages/test_shellpages.py:52-55 | a 78-character title is refused with `Title must be less than 78 characters` |
| Examples.TitleShort | shellpages/test_shellpages.py:56-57 | a short title of one line is accepted and nothing else changes |
| Examples.BodyShort | shellpages/test_shellpages.py:65-66 | a short body is accepted and nothing else changes |
| Examples.BodyLongLine | shellpages/test_shellpages.py:70-75 | a body with an 80-character line is refused |
| Examples.OrderCases | shellpages/test_shellpages.py:108-123 | an order with a key that is not an option is refused, `['1']` accepted |
| Examples.AddOptionBuiltin | shellpages/test_shellpages.py:95-97 | a callable shown as `<built-in function round>` is refused |
| Examples.RemoveOptionAbsent | shellpages/test_shellpages.py:105-106 | removing `3` gives `'3' is not an option` |
| Examples.RemoveDuplicateAsWritten | shellpages/shellpages.py:164-169 | with order `['1', '1']`, removing `1` as written leaves `1` listed but unbound, so the page can no longer be shown |
| Examples.RemoveDuplicateCorrected | shellpages/shellpages.py:150-169 | the corrected removal leaves an empty order and a page that shows |
| Examples.InvalidParsersCase | shellpages/test_shellpages.py:191-198 | a strategy returning a float, two values or four values gives `parse method must return 3 values` |
| Examples.EmptyResultCase | shellpages/shellpages.py:217-224 | a strategy returning no values gives Python's own `need more than 0 values to unpack` |
| Examples.RemoveMiddleKeepsOrder | shellpages/test_shellpages.py:250-258 | removing the middle of three listed keys leaves the other two in order, and the code as written agrees |
| Examples.OldStyleResultCase | shellpages/shellpages.py:217-224 | the TypeError for iterating an old-style instance is re-raised unchanged, not replaced by the library's ValueError |
| Examples.BrowserFloatResult | shellpages/shellpages.py:51-64 | a float result ends the turn with `parse method must return 3 values` |
| Examples.BrowserNotCallable | shellpages/shellpages.py:51-64 | an `'int' object is not callable` TypeError becomes `Invalid object in the pages dictionary` |
| Examples.MenuPage1Shown | test_shellpages.py:27-30 | the older first menu page shows as `[test page]`, a blank line and two `> k - name` lines |
| Examples.MenuScript | test_shellpages.py:3-44 | pushing three pages, `back` returns to the second and `home` to the first |

## Left out

- The console loops are left out: `Browser.main`, the older `Page.__call__` and `Menu.__call__`'s call of the page. Reading input, printing, clearing the screen and `sys.exit` are I/O. One turn after the input is read is modelled by `Browser.TakeTurn`.
- `_get_clear_word` and `_CLEAR` are left out. They only detect the platform.
- Calling an option's function is left out. It is foreign code, so `Browser.TakeTurn` only names the callable and the arguments.
- Exceptions an option raises when `_process` calls it are left out, together with the AttributeErrors `_process` handles: an option is foreign code, and `PyError` has no AttributeError. A TypeError from `process` itself does go through `_process`'s patterns (`Browser.TakeTurn`).
- Unpack.NotIterableRecognised: stated only for a type name without a quote. Python 2 accepts such names (`type("a'b", (object,), {})`), and whether the pattern then matches depends on the text after the name's first quote, which the model does not characterise.
- Unpack.MatchedNameIsTypeName: stated only for a type name without a quote. With a quote, a name such as `ab' object is not iterablex` is accepted by the pattern though it is not word characters and dots.
- Dispatch.Process: for a non-iterable result whose type name holds a quote, it promises that the result is an error, either the library's ValueError or the TypeError itself, but not which.
- Python's runtime type checks are left out: `isinstance(..., basestring)`, `callable`, `Sequence`, `hasattr(options, 'iteritems')`, and the TypeErrors they raise. The model's parameter types cannot express the ill-typed values these checks reject, so those inputs are not modelled at all. The one exception is `push`'s callable check, which is modelled by `Menus.Candidate`.
- Unicode titles, option texts and messages, which their `isinstance(..., basestring)` checks admit, are left out. A unicode body is refused with TypeError, because the body setter checks `type(other) is not str` (shellpages/shellpages.py:262); that check is left out with the others. A `string` here is a byte string, so the length limits count bytes.
- Dispatch.Process: an exception carries its message in the model, and `Failed` always has one. A strategy exception raised with no arguments (`raise ValueError`) makes `e.args[0]` at shellpages/shellpages.py:222 raise IndexError, and one whose first argument is not a string makes `re.match` raise TypeError; `ParseError(m)` with a non-string `m` makes `add_message` at :215 raise TypeError. In all these the strategy's error is lost. None of this is modelled: `PyError` cannot express an error without a string message.
- Browser.TakeTurn: likewise, a TypeError from `process` with no arguments or a non-string first argument makes `e.args[0]` or `re.match` at shellpages/shellpages.py:61 raise instead of applying the three patterns. This is not modelled.
- The order setter accepts any `Sequence`, including tuples and strings; the model takes a list of strings. A tuple order shows as `('1', '2')` in the invalid-input message and makes `remove_option` raise AttributeError, and a string order lists its characters. None of this is modelled.
- The order setter keeps the caller's own list (shellpages/shellpages.py:301), and `remove_option` changes that list in place (shellpages/shellpages.py:169). A caller who keeps and later changes the list can list an unbound key without any check. The model has value semantics, so this sharing is left out: `Pages.Valid` holds for every page the library's own operations build, and `Browser.DisplayValidPage` and `Browser.DefaultTurn` promise nothing for a page whose order list is changed from outside.
- `deepcopy` and the copying getters of `options` and `order` are left out. Value semantics make every read a snapshot.
- The `parse` property is left out. It is set-only: its getter always raises AttributeError, and its setter binds a strategy that `process` receives as an outcome instead.
- A parse strategy that changes the page's options, order, title or body while it runs is not modelled. Only its `add_message` calls are.
- `Browser.__init__` ignores its `pages` argument (shellpages/shellpages.py:30). The browser's page directory and history are left out; `TakeTurn` is given the current page.
- The older `Page.options` setter raises TypeError for any argument that is not callable, including the dictionary it is meant to receive (shellpages.py:120-122); a callable argument reaches the assignment of an undefined name and raises NameError (shellpages.py:123). The file does not load at all, because the body of `ParseError.__init__` is not indented (shellpages.py:4-5). The model keeps only the intended `Menu`, `Option.__str__` and `Page.__str__`.
- A number used as a key of the older `Option` is represented by its text, which is how `'{0.key}'.format` shows it.
- Pages.NewPage: when several options are invalid, Python reports the first one in dictionary iteration order, which is not defined. The model reports a bad key length before a bad string form.
- PyRepr.EscapeChar: Python 2 byte strings have no characters above 0xFF. For those, the model writes `\u`/`\U` escapes inside the quotes, as Python 2's unicode repr does, but leaves out the `u` prefix it puts before the opening quote.

## Findings

| source | as written | input that shows it | evidently intended | confidence | as-written member | corrected member |
|---|---|---|---|---|---|---|
| shellpages/shellpages.py:168-169 | `remove_option` calls `self._order.remove(key)`, which removes only the first occurrence | a page with options `{'1': ...}` and order `['1', '1']` (the order setter accepts duplicates), then `remove_option('1')`: `'1'` stays in the order with no option, and `str(page)` raises KeyError | the key leaves the order entirely, as the method's docstring says, so the page stays showable | not executed | Pages.RemoveOptionAsWritten, Examples.RemoveDuplicateAsWritten | Pages.RemoveOption |

=== FILE: browser.dfy ===
/** One turn of `Browser.main` (shellpages/shellpages.py) once a line has been
    read: the display check, the quit word, `process`, and the choice
    `Browser._process` makes between calling an option and doing nothing.
    Reading the line, clearing the screen and running the option are left to
    the caller. */
module Browser {
  import opened Errors
  import opened Text
  import opened Options
  import opened Pages
  import opened Dispatch

  /** The input that ends the program, checked before any parsing. */
  const QuitWord: string := "quit"

  /** What `_process` raises when a TypeError suggests a bad entry in the pages dictionary. */
  const InvalidPagesMessage: string := "Invalid object in the pages dictionary"

  /** `re.match(r'.+' + tail, s)`: `tail` occurs after at least one character,
      with no newline before it. */
  predicate MatchesAfterSome(s: string, tail: string) {
    exists k :: 1 <= k <= |s| - |tail| && s[k..k + |tail|] == tail && '\n' !in s[..k]
  }

  /** The three patterns `_process` tries on a TypeError's text. */
  predicate NamesBadPage(message: string) {
    || MatchesAfterSome(message, "has no attribute 'process'")
    || MatchesAfterSome(message, "has no attribute 'options'")
    || MatchesAfterSome(message, "is not callable")
  }

  /** Any one-line text followed by `is not callable` is taken to name a bad page object. */
  lemma NotCallableNamesBadPage(prefix: string)
    requires |prefix| >= 1 && '\n' !in prefix
    ensures NamesBadPage(prefix + "is not callable")
  {
    var s, tail := prefix + "is not callable", "is not callable";
    assert s[|prefix|..|prefix| + |tail|] == tail;
    assert s[..|prefix|] == prefix;
  }

  /** What one turn leads to. */
  datatype Turn =
    | Quit                                                        // sys.exit()
    | Stay(page: Page)                                            // the sentinel: no option runs
    | Call(page: Page, key: string, target: Callable, args: Args) // options[key](*args, **kwargs)
    | Ignored(page: Page, error: PyError)                         // a TypeError `_process` swallows
    | Fail(page: Page, error: PyError)                            // an exception leaves the loop

  /** `Browser._display`: the page's string form, unless it looks like the
      default `<...>` form of an object that is not a page. */
  function Display(p: Page): (r: Result<string>)
    ensures r.Ok? ==> Render(p) == r && !AngleForm(r.value)
    ensures Render(p).Ok? && AngleForm(Render(p).value) ==>
              r == Err(TypeError("Invalid object being displayed"))
    ensures Render(p).Err? ==> r == Render(p)
  {
    var s :- Render(p);
    if AngleForm(s) then Err(TypeError("Invalid object being displayed")) else Ok(s)
  }

  /** One turn on page `p` with raw input `input`, the page's strategy having
      done `outcome`. */
  function TakeTurn(p: Page, input: string, outcome: ParseOutcome): (r: Turn)
    ensures input == QuitWord <==> r.Quit?
    ensures !r.Quit? ==> r.page == Process(p, input, outcome).page
    ensures r.Call? ==>
              && r.key != InvalidInput
              && r.key in r.page.options && r.target == r.page.options[r.key]
              && Process(p, input, outcome).result == Ok(Decision(r.key, r.args))
    ensures r.Stay? ==>
              Process(p, input, outcome).result.Ok?
              && Process(p, input, outcome).result.value.key == InvalidInput
    // a TypeError from `process` is swallowed unless it names a bad page object
    ensures r.Ignored? ==>
              Process(p, input, outcome).result == Err(r.error)
              && r.error.TypeError? && !NamesBadPage(r.error.message)
    ensures r.Fail? ==>
              || (Process(p, input, outcome).result == Err(r.error) && !r.error.TypeError?)
              || (r.error == TypeError(InvalidPagesMessage)
                  && Process(p, input, outcome).result.Err?
                  && Process(p, input, outcome).result.error.TypeError?
                  && NamesBadPage(Process(p, input, outcome).result.error.message))
              || (r.error.KeyError? && r.error.key !in p.options && r.error.key != InvalidInput
                  && Process(p, input, outcome).result.Ok?
                  && Process(p, input, outcome).result.value.key == r.error.key)
    // the sentinel never calls an option, a bound key always does
    ensures input != QuitWord && Process(p, input, outcome).result.Ok?
            && Process(p, input, outcome).result.value.key == InvalidInput ==>
              r == Stay(Process(p, input, outcome).page)
    ensures input != QuitWord && Process(p, input, outcome).result.Ok?
            && Process(p, input, outcome).result.value.key != InvalidInput
            && Process(p, input, outcome).result.value.key in p.options ==>
              r.Call? && r.key == Process(p, input, outcome).result.value.key
              && r.args == Process(p, input, outcome).result.value.args
    // every other error of `process` leaves the loop unchanged
    ensures input != QuitWord && Process(p, input, outcome).result.Err?
            && !Process(p, input, outcome).result.error.TypeError? ==>
              r == Fail(Process(p, input, outcome).page, Process(p, input, outcome).result.error)
  {
    if input == QuitWord then Quit
    else
      var done := Process(p, input, outcome);
      match done.result
      case Err(e) =>
        if !e.TypeError? then Fail(done.page, e)
        else if NamesBadPage(e.message) then Fail(done.page, TypeError(InvalidPagesMessage))
        else Ignored(done.page, e)
      case Ok(d) =>
        if d.key == InvalidInput then Stay(done.page)
        else if d.key !in done.page.options then Fail(done.page, KeyError(d.key))
        else Call(done.page, d.key, done.page.options[d.key], d.args)
  }

  /** With the default strategy a turn on a valid page never fails: it quits
      exactly on the quit word, calls the option named by the input exactly
      when the input is a key, and otherwise stays on the page. */
  lemma DefaultTurn(p: Page, input: string)
    requires Valid(p)
    ensures var r := TakeTurn(p, input, DefaultParse(input));
            && !r.Fail? && !r.Ignored?
            && (r.Call? <==> input != QuitWord && input in p.options)
            && (r.Stay? <==> input != QuitWord && input !in p.options)
            && (r.Call? ==> r.key == input && r.target == p.options[input] && r.args == NoArgs)
  {
    if input != QuitWord {
      DefaultProcess(p, input);
    }
  }

  /** Whatever the strategy does, the quit word ends the program. */
  lemma QuitBeforeParsing(p: Page, outcome: ParseOutcome)
    ensures TakeTurn(p, QuitWord, outcome) == Quit
  {
  }

  /** The display check never rejects a page built through the library's own
      checked operations. */
  lemma DisplayValidPage(p: Page)
    requires Valid(p)
    ensures Display(p).Ok? && Display(p) == Render(p)
  {
    RenderNeverAngle(p);
  }
}

=== FILE: dispatch.dfy ===
/** `Page.process` (shellpages/shellpages.py): how the outcome of a page's
    parse strategy becomes a dispatch decision — a key and arguments — or a
    fatal error, and which messages the page holds afterwards. */
module Dispatch {
  import opened Errors
  import opened Options
  import opened Pages
  import opened Layout
  import PyRepr
  import opened Unpack

  /** What the default strategy returns: "look the raw input up yourself". */
  const InputNotChecked: string := "input not checked"

  /** The key that tells the browser to call no option. */
  const InvalidInput: string := "invalid input"

  const KeyContractMessage: string := "Parse method must return key as 1 character or \"invalid input\""

  const ArityMessage: string := "parse method must return 3 values"

  /** Argument values are passed through untouched; the core never looks inside them. */
  type Value = string

  /** Positional and named arguments for the option that is called. */
  datatype Args = Args(positional: seq<Value>, named: map<string, Value>)

  const NoArgs: Args := Args([], map[])

  /** What a call of the page's parse strategy did. `added` are the messages
      it put on the page through `add_message` before it finished. */
  datatype ParseOutcome =
    | Returned(added: seq<string>, key: string, args: Args)   // returned a triple
    | Raised(added: seq<string>, message: string)             // raised ParseError(message)
    | WrongArity(added: seq<string>, count: Arity)             // returned a sequence of `count` values
    | NotIterable(added: seq<string>, typeName: string)       // returned a new-style value that cannot be iterated
    | Failed(added: seq<string>, error: PyError)              // raised an exception other than ParseError

  /** The default strategy (`_default_parse`, and the constructor's default). */
  function DefaultParse(input: string): ParseOutcome {
    Returned([], InputNotChecked, NoArgs)
  }

  /** The key and arguments `process` returns. */
  datatype Decision = Decision(key: string, args: Args)

  /** The page after `process`, and what `process` returned or raised. */
  datatype Processed = Processed(page: Page, result: Result<Decision>)

  /** The message the page shows when the raw input is not one of its keys. */
  function InvalidInputMessage(order: seq<string>): string {
    "Invalid input. Please enter an option from " + PyRepr.ListRepr(order)
  }

  /** What the `except (TypeError, ValueError)` clause raises for `e`: the
      library's own error when `e` reads like an unpacking failure, else `e`. */
  function Reraised(e: PyError): PyError {
    if Recognised(e) then ValueError(ArityMessage) else e
  }

  const Rejected: Decision := Decision(InvalidInput, NoArgs)

  /** `page.process(input)`, the strategy having done `outcome`. */
  function Process(p: Page, input: string, outcome: ParseOutcome): (r: Processed)
    // only the messages change, and they start afresh with what the strategy added
    ensures r.page == p.(messages := r.page.messages)
    ensures outcome.added <= r.page.messages
    ensures |r.page.messages| <= |outcome.added| + 1
    // what comes back from a valid page is a one-character key or the invalid-input sentinel
    ensures Valid(p) && r.result.Ok? ==> |r.result.value.key| == 1 || r.result.value.key == InvalidInput
    // a recoverable parse failure becomes one more message and the sentinel
    ensures outcome.Raised? ==>
              r == Processed(p.(messages := outcome.added + [outcome.message]), Ok(Rejected))
    // an unpacking failure is a ValueError, the library's own unless the result was empty
    ensures outcome.WrongArity? ==>
              r.page == p.(messages := outcome.added) && r.result.Err? && r.result.error.ValueError?
              && (r.result.error == ValueError(ArityMessage) <==> outcome.count != 0)
    ensures outcome.WrongArity? && outcome.count == 0 ==> r.result == Err(CountError(0))
    ensures outcome.NotIterable? ==>
              r.page == p.(messages := outcome.added) && r.result.Err?
              && (r.result.error == ValueError(ArityMessage)
                  || r.result.error == NotIterableError(outcome.typeName))
    ensures outcome.NotIterable? && '\'' !in outcome.typeName ==>
              r.page == p.(messages := outcome.added)
              && (IsTypeName(outcome.typeName) ==> r.result == Err(ValueError(ArityMessage)))
              && (!IsTypeName(outcome.typeName) ==> r.result == Err(NotIterableError(outcome.typeName)))
    // the strategy's own TypeError or ValueError is re-raised, or replaced when its
    // text reads like an unpacking failure; any other exception passes through
    ensures outcome.Failed? ==>
              r.page == p.(messages := outcome.added) && r.result.Err?
              && (Recognised(outcome.error) ==> r.result.error == ValueError(ArityMessage))
              && (!Recognised(outcome.error) ==> r.result.error == outcome.error)
    ensures outcome.Failed? && !outcome.error.TypeError? && !outcome.error.ValueError? ==>
              r.result == Err(outcome.error)
    // the default strategy's sentinel: the raw input is the key if it is one
    ensures outcome.Returned? && outcome.key == InputNotChecked && input in p.options ==>
              r == Processed(p.(messages := outcome.added), Ok(Decision(input, NoArgs)))
    ensures outcome.Returned? && outcome.key == InputNotChecked && input !in p.options ==>
              r == Processed(p.(messages := outcome.added + [InvalidInputMessage(p.order)]), Ok(Rejected))
    // any other key the strategy returns is checked, not looked up
    ensures outcome.Returned? && outcome.key != InputNotChecked ==>
              r.page.messages == outcome.added
              && (r.result.Ok? <==> |outcome.key| == 1 || outcome.key == InvalidInput)
              && (r.result.Ok? ==> r.result.value == Decision(outcome.key, outcome.args))
              && (r.result.Err? ==> r.result.error == ValueError(KeyContractMessage))
  {
    var q := RemoveMessages(p).(messages := outcome.added);
    match outcome
    case WrongArity(_, n) => CountRecognised(n); Processed(q, Err(Reraised(CountError(n))))
    case NotIterable(_, t) =>
      (if '\'' !in t then NotIterableRecognised(t); Processed(q, Err(Reraised(NotIterableError(t))))
       else Processed(q, Err(Reraised(NotIterableError(t)))))
    case Failed(_, e) => Processed(q, Err(Reraised(e)))
    case Raised(_, m) => Processed(AddMessage(q, m), Ok(Rejected))
    case Returned(_, key, args) =>
      if key == InputNotChecked then
        if input !in p.options then
          Processed(AddMessage(q, InvalidInputMessage(p.order)), Ok(Rejected))
        else Processed(q, Ok(Decision(input, NoArgs)))
      else if |key| != 1 && key != InvalidInput then Processed(q, Err(ValueError(KeyContractMessage)))
      else Processed(q, Ok(Decision(key, args)))
  }

  /** Messages from before the call never survive it: `process` gives the same
      page and result whatever messages the page held. */
  lemma ProcessForgetsMessages(p: Page, old_messages: seq<string>, input: string, outcome: ParseOutcome)
    ensures Process(p.(messages := old_messages), input, outcome) == Process(p, input, outcome)
  {
  }

  /** Processing the same input again with the same outcome changes nothing more. */
  lemma ProcessTwice(p: Page, input: string, outcome: ParseOutcome)
    ensures var once := Process(p, input, outcome);
            Process(once.page, input, outcome) == once
  {
    ProcessForgetsMessages(p, Process(p, input, outcome).page.messages, input, outcome);
  }

  /** `process` keeps a page valid: it changes only the messages. */
  lemma ProcessKeepsValid(p: Page, input: string, outcome: ParseOutcome)
    requires Valid(p)
    ensures Valid(Process(p, input, outcome).page)
  {
  }

  /** With the default strategy, the input comes back as the key exactly when
      it is an option of the page, and then no message is left; otherwise the
      sentinel comes back with the single message that lists the order. */
  lemma DefaultProcess(p: Page, input: string)
    requires Valid(p)
    ensures var r := Process(p, input, DefaultParse(input));
            && r.result.Ok?
            && (r.result.value.key != InvalidInput <==> input in p.options)
            && (input in p.options ==> r.result.value == Decision(input, NoArgs) && r.page.messages == [])
            && (input !in p.options ==> r.result.value == Rejected
                                        && r.page.messages == [InvalidInputMessage(p.order)])
  {
    if input in p.options {
      assert |input| == 1;
    }
  }

  /** With the default strategy, a key other than the sentinel is always one
      of the page's options: the browser's lookup `options[key]` cannot fail. */
  lemma DefaultProcessKeyIsOption(p: Page, input: string)
    requires Valid(p)
    ensures var r := Process(p, input, DefaultParse(input));
            r.result.value.key != InvalidInput ==> r.result.value.key in p.options
  {
    DefaultProcess(p, input);
  }

  /** After an input the default strategy rejects, the page shows what it
      showed before followed by the invalid-input paragraph. */
  lemma DefaultRejectionShown(p: Page, input: string)
    requires Valid(p)
    requires input !in p.options
    ensures var q := Process(p, input, DefaultParse(input)).page;
            Render(q) == Ok(Render(RemoveMessages(p)).value + "\n" + InvalidInputMessage(p.order) + "\n")
  {
    var q := Process(p, input, DefaultParse(input)).page;
    assert q == AddMessage(RemoveMessages(p), InvalidInputMessage(p.order));
    RenderParts(RemoveMessages(p));
    RenderAddMessage(RemoveMessages(p), InvalidInputMessage(p.order));
  }
}

=== FILE: errors.dfy ===
/** Python's exceptions as the library raises them, and the wrappers that carry
    either a value or one of those exceptions. */
module Errors {

  /** The exception classes the library raises, each with the text it carries. */
  datatype PyError =
    | TypeError(message: string)
    | ValueError(message: string)
    | KeyError(key: string)
    | IndexError(message: string)

  /** A value, or the exception that replaced it. Usable with `:-`. */
  datatype Result<+T> = Ok(value: T) | Err(error: PyError) {

    predicate IsFailure() {
      Err?
    }

    function PropagateFailure<U>(): Result<U>
      requires Err?
    {
      Err(error)
    }

    function Extract(): T
      requires Ok?
    {
      value
    }
  }

  /** An optional value (named so as not to clash with the library's Option). */
  datatype Maybe<+T> = Nothing | Just(value: T)
}

=== FILE: examples.dfy ===
/** Worked cases: the pages, options and inputs of the library's own unit
    tests (shellpages/test_shellpages.py and test_shellpages.py), with the
    outcomes those tests expect, stated about the model. */
module Examples {
  import opened Errors
  import opened Text
  import opened Options
  import opened Pages
  import opened Dispatch
  import opened Menus
  import opened Legacy
  import opened Unpack
  import PyRepr
  import Browser

  const One: Option := Option("1", "Option 1", 1)
  const Two: Option := Option("2", "Option 2", 2)
  const Three: Option := Option("3", "Option 3", 3)

  const TestBody: string := "This is the body of\nthe test page"

  /** The page every unit test starts from. */
  const TestPage: Page := Page("Test Page", TestBody,
                               map["1" := OptionCallable(One), "2" := OptionCallable(Two)],
                               ["1", "2"], [])

  /** An option is built from a one-character key and shows as `[key] text`. */
  lemma OptionCase()
    ensures NewOption("1", "Test", 0) == Ok(Option("1", "Test", 0))
    ensures ShowOption(Option("1", "Test", 0)) == "[1] Test"
  {
  }

  /** The body of the test page is two short lines. */
  lemma TestBodyFits()
    ensures LinesWithin(TestBody, 79)
  {
    var a, b := "This is the body of", "the test page";
    assert TestBody == a + "\n" + b;
    ShortWithin(b, 79);
    LineThenRestWithin(a, b, 79);
  }

  /** Both options of the test page are acceptable under their keys. */
  lemma TestOptionsAcceptable()
    ensures forall k :: k in TestPage.options ==> |k| == 1 && !AngleForm(Show(TestPage.options[k]))
  {
    assert ShowOption(One)[0] == '[' && ShowOption(Two)[0] == '[';
    NotAngleByFirst(ShowOption(One));
    NotAngleByFirst(ShowOption(Two));
    assert TestPage.options.Keys == {"1", "2"};
  }

  /** What the test page is built from passes every check of the constructor. */
  lemma TestPageChecks()
    ensures TitleOk("Test Page") && LinesWithin(TestBody, 79)
    ensures forall k :: k in TestPage.options ==> |k| == 1 && !AngleForm(Show(TestPage.options[k]))
    ensures forall i :: 0 <= i < |TestPage.order| ==> TestPage.order[i] in TestPage.options
  {
    TestBodyFits();
    TestOptionsAcceptable();
  }

  /** A constructor call whose parts pass every check builds exactly that page. */
  lemma Built(title: string, body: string, options: map<string, Callable>, order: seq<string>)
    requires TitleOk(title) && LinesWithin(body, 79)
    requires forall k :: k in options ==> |k| == 1 && !AngleForm(Show(options[k]))
    requires forall i :: 0 <= i < |order| ==> order[i] in options
    ensures NewPage(title, body, options, order) == Ok(Page(title, body, options, order, []))
  {
  }

  /** The constructor accepts the test page's parts. */
  lemma TestPageBuilt()
    ensures NewPage("Test Page", TestBody, TestPage.options, TestPage.order) == Ok(TestPage)
  {
    TestPageChecks();
    Built("Test Page", TestBody, TestPage.options, TestPage.order);
  }

  /** What the unit test expects the test page to show, written as the test writes it. */
  const TestPageText: string :=
    "[Test Page]\n" + "\n" + "This is the body of\n" + "the test page\n" + "\n" + "[1] Option 1\n" + "[2] Option 2\n"

  /** The heading of the test page. */
  lemma TestHeading()
    ensures Layout.Heading("Test Page", TestBody)
         == "[Test Page]\n" + "\n" + ("This is the body of\n" + "the test page\n" + "\n")
  {
    assert "Test Page" != "" && TestBody != "";
    assert "[" + "Test Page" + "]\n\n" == "[Test Page]\n" + "\n";
    TestBodyLines();
  }

  lemma TestBodyLines()
    ensures TestBody + "\n\n" == "This is the body of\n" + "the test page\n" + "\n"
  {
    assert TestBody == "This is the body of\n" + "the test page";
  }

  /** The listing of the test page. */
  lemma TestListing()
    ensures Layout.Listing(["1", "2"], TestPage.options, Show) == "[1] Option 1\n" + "[2] Option 2\n"
  {
    assert Show(TestPage.options["1"]) + "\n" == "[1] Option 1\n";
    assert Show(TestPage.options["2"]) + "\n" == "[2] Option 2\n";
  }

  /** The test page shows its title, its body and its two options. */
  lemma TestPageShown()
    ensures Render(TestPage) == Ok(TestPageText)
  {
    RenderParts(TestPage);
    TestHeading();
    TestListing();
    var h1, h2, b1, b2, b3, l1, l2 :=
      "[Test Page]\n", "\n", "This is the body of\n", "the test page\n", "\n", "[1] Option 1\n", "[2] Option 2\n";
    assert Layout.Trailer([]) == "";
    assert h1 + h2 + (b1 + b2 + b3) + (l1 + l2) + "" == h1 + h2 + b1 + b2 + b3 + l1 + l2;
  }

  /** `str(['1', '2'])`. */
  lemma OrderRepr()
    ensures PyRepr.ListRepr(["1", "2"]) == "['1', '2']"
  {
    assert PyRepr.QuoteFor("1") == '\'' && PyRepr.QuoteFor("2") == '\'';
    assert PyRepr.StrRepr("1") == "'1'";
    assert PyRepr.StrRepr("2") == "'2'";
    assert PyRepr.Items(["1", "2"]) == "'1', '2'";
  }

  const TestInvalidMessage: string := "Invalid input. Please enter an option from ['1', '2']"

  /** The default strategy on the test page: a key comes back as itself with
      no message; anything else gives the sentinel and the message listing
      the order. */
  lemma DefaultProcessCase()
    ensures Process(TestPage, "3", DefaultParse("3"))
         == Processed(TestPage.(messages := [TestInvalidMessage]), Ok(Rejected))
    ensures Process(TestPage, "1", DefaultParse("1")) == Processed(TestPage, Ok(Decision("1", NoArgs)))
  {
    OrderRepr();
    assert InvalidInputMessage(["1", "2"]) == TestInvalidMessage;
  }

  /** The strategy the unit test installs: it adds messages while it parses,
      raises ParseError for a bare "2", and returns a key that breaks the
      contract for inputs starting with "3". (`data[0]` of an empty input
      raises IndexError in the source, which no outcome stands for, so the
      empty input is left out.) */
  function TestStrategy(data: string): ParseOutcome
    requires |data| > 0
  {
    if data == "1" then Returned(["You chose Option 1"], data, NoArgs)
    else if data[0] == '2' then
      if |data| == 1 then Raised(["You chose Option 2"], "Option 2 must be called with arguments")
      else Returned(["You chose Option 2", "Your arguments were: \"" + data[1..] + "\""], data[..1], NoArgs)
    else if data[0] == '3' then Returned([], "not a valid key", NoArgs)
    else Returned([], InvalidInput, NoArgs)
  }

  /** Input "1": the strategy's message stays and the key comes back. */
  lemma CustomProcessOne()
    ensures Process(TestPage, "1", TestStrategy("1"))
         == Processed(TestPage.(messages := ["You chose Option 1"]), Ok(Decision("1", NoArgs)))
  {
  }

  /** Input "2": the ParseError's text follows the strategy's message, and
      the sentinel comes back. */
  lemma CustomProcessTwo()
    ensures Process(TestPage, "2", TestStrategy("2"))
         == Processed(TestPage.(messages := ["You chose Option 2", "Option 2 must be called with arguments"]),
                      Ok(Rejected))
  {
  }

  /** Input "2 Hello, world!": both messages stay and key "2" comes back. */
  lemma CustomProcessTwoWithArguments()
    ensures var r := Process(TestPage, "2 Hello, world!", TestStrategy("2 Hello, world!"));
            && r.page.messages == ["You chose Option 2", "Your arguments were: \" Hello, world!\""]
            && r.result == Ok(Decision("2", NoArgs))
  {
    assert "2 Hello, world!"[1..] == " Hello, world!";
    assert "2 Hello, world!"[..1] == "2";
    assert "Your arguments were: \"" + " Hello, world!" == "Your arguments were: \" Hello, world!";
    assert "Your arguments were: \" Hello, world!" + "\"" == "Your arguments were: \" Hello, world!\"";
  }

  /** Input "3": a key that is neither one character nor the sentinel is fatal. */
  lemma CustomProcessThree()
    ensures Process(TestPage, "3", TestStrategy("3")).result == Err(ValueError(KeyContractMessage))
  {
  }

  /** The unit test's three bad strategies: a float, a pair and four values
      each end in the library's own ValueError. */
  lemma InvalidParsersCase()
    ensures Process(TestPage, "1", NotIterable([], "float")).result == Err(ValueError(ArityMessage))
    ensures Process(TestPage, "1", WrongArity([], 2)).result == Err(ValueError(ArityMessage))
    ensures Process(TestPage, "1", WrongArity([], 4)).result == Err(ValueError(ArityMessage))
  {
    assert IsTypeName("float") by { assert "float"[4] == 't'; }
  }

  /** A strategy returning an empty tuple is not recognised: Python's own
      unpacking error comes through. */
  lemma EmptyResultCase()
    ensures Process(TestPage, "1", WrongArity([], 0)).result
         == Err(ValueError("need more than 0 values to unpack"))
  {
    ZeroValuesMessage();
  }

  /** Python 2's text for unpacking an empty tuple into three names. */
  lemma ZeroValuesMessage()
    ensures TooFewMessage('0', "s") == "need more than 0 values to unpack"
  {
    PieceFacts();
    assert "need more than 0 values to unpack" == NeedMoreThan + "0 values to unpack";
    assert ['0'] + ValueWord + "s" + ToUnpack == "0 values to unpack";
  }

  /** The title setter refuses a title of two lines. */
  lemma TitleTwoLines()
    ensures SetTitle(TestPage, "A multi-line\ntitle") == Err(ValueError("Title must be no longer than 1 line"))
  {
    assert "A multi-line\ntitle"[12] == '\n';
  }

  /** `w` written `n` times. */
  function Repeat(w: string, n: nat): (r: string)
    ensures |r| == |w| * n
    ensures forall c :: c !in w ==> c !in r
  {
    if n == 0 then "" else w + Repeat(w, n - 1)
  }

  /** The unit test's long title: "This title is very ... very long", 78 characters. */
  const LongTitle: string := "This title is " + Repeat("very ", 12) + "long"

  /** The long title has 78 characters on one line. */
  lemma LongTitleFacts()
    ensures |LongTitle| == 78 && '\n' !in LongTitle
  {
    assert '\n' !in "very ";
    var v := Repeat("very ", 12);
    assert '\n' !in v;
    assert '\n' !in "This title is " && '\n' !in "long";
  }

  /** The title setter refuses a title of 78 characters. */
  lemma TitleTooLong()
    ensures SetTitle(TestPage, LongTitle) == Err(ValueError("Title must be less than 78 characters"))
  {
    LongTitleFacts();
  }

  /** The title setter takes a short title of one line. */
  lemma TitleShort()
    ensures SetTitle(TestPage, "A Valid Title") == Ok(TestPage.(title := "A Valid Title"))
  {
    assert '\n' !in "A Valid Title";
  }

  /** The second line of the unit test's long body, 80 characters. */
  const LongLine: string := "one line that's " + Repeat("very ", 12) + "long"

  /** The long line has 80 characters and no newline. */
  lemma LongLineFacts()
    ensures |LongLine| == 80 && '\n' !in LongLine
  {
    assert '\n' !in "very ";
    var v := Repeat("very ", 12);
    assert '\n' !in v;
    assert '\n' !in "one line that's " && '\n' !in "long";
  }

  /** The body setter takes a short body. */
  lemma BodyShort()
    ensures SetBody(TestPage, "A valid body") == Ok(TestPage.(body := "A valid body"))
  {
    ShortWithin("A valid body", 79);
  }

  /** The unit test's long body has a line longer than 79 characters. */
  lemma LongBodyTooWide()
    ensures !LinesWithin("A page body with" + "\n" + LongLine, 79)
  {
    LongLineFacts();
    SingleLineWithin(LongLine, 79);
    assert '\n' !in "A page body with";
    LineThenRestWithin("A page body with", LongLine, 79);
  }

  /** The body setter refuses a body whose second line has 80 characters. */
  lemma BodyLongLine()
    ensures SetBody(TestPage, "A page body with" + "\n" + LongLine)
         == Err(ValueError("Each line in the body must be less than 80 characters"))
  {
    LongBodyTooWide();
  }

  /** The order setter on the unit test's orders. */
  lemma OrderCases()
    ensures SetOrder(TestPage, ["1", "2", "3"]) == Err(ValueError("each key in order must be a key in options"))
    ensures SetOrder(TestPage, ["1"]) == Ok(TestPage.(order := ["1"]))
  {
    assert ["1", "2", "3"][2] !in TestPage.options;
  }

  const Four: Option := Option("4", "Option 4", 4)

  /** `add_option` binds a new key without listing it. */
  lemma AddOptionNew()
    ensures var r := AddOption(TestPage, "3", OptionCallable(Three));
            r.Ok? && "3" in r.value.options && "3" !in r.value.order
  {
    ShowOptionShape(Three);
  }

  /** `add_option` refuses a key of three characters. */
  lemma AddOptionLongKey()
    ensures AddOption(TestPage, "[4]", OptionCallable(Four)) == Err(ValueError("key must be 1 character"))
  {
  }

  /** How Python 2 shows the builtin `round`. */
  const RoundShown: string := "<" + "built-in function round" + ">"

  /** The builtin's string form has the default `<...>` shape. */
  lemma RoundShownAngle()
    ensures AngleForm(RoundShown)
  {
    assert '\n' !in "built-in function round";
    AngleFormIntro("built-in function round", "");
    assert RoundShown + "" == RoundShown;
  }

  /** `add_option` refuses a callable whose string form is `<built-in function round>`. */
  lemma AddOptionBuiltin()
    ensures AddOption(TestPage, "4", OtherCallable(0, RoundShown))
         == Err(TypeError("option must have a valid string method wrapper"))
  {
    RoundShownAngle();
  }

  /** The string test's page after option 3 is bound and listed. */
  const TriPage: Page := TestPage.(options := TestPage.options["3" := OptionCallable(Three)],
                                   order := ["1", "2", "3"])

  /** Removing the middle option keeps the others in their order, in the
      source's removal and in the corrected one alike. */
  lemma RemoveMiddleKeepsOrder()
    ensures RemoveOption(TriPage, "2").Ok? && RemoveOption(TriPage, "2").value.order == ["1", "3"]
    ensures RemoveOptionAsWritten(TriPage, "2") == RemoveOption(TriPage, "2")
  {
    TriWithoutMiddle();
    TriListsMiddleOnce();
    RemoveOptionAgreesWhenListedOnce(TriPage, "2");
  }

  /** The corrected removal of `2` from `['1', '2', '3']`. */
  lemma TriWithoutMiddle()
    ensures Without(TriPage.order, "2") == ["1", "3"]
  {
    assert Without(["3"], "2") == ["3"];
    assert Without(["2", "3"], "2") == ["3"];
    assert Without(["1", "2", "3"], "2") == ["1"] + ["3"];
  }

  /** `2` is listed once in `['1', '2', '3']`. */
  lemma TriListsMiddleOnce()
    ensures multiset(TriPage.order)["2"] <= 1
  {
    assert TriPage.order == ["1"] + ["2"] + ["3"];
    assert multiset(TriPage.order) == multiset{"1"} + multiset{"2"} + multiset{"3"};
  }

  /** `remove_option` drops a listed key from the options and the order. */
  lemma RemoveOptionListed()
    ensures RemoveOption(TestPage, "2")
         == Ok(TestPage.(options := map["1" := OptionCallable(One)], order := ["1"]))
  {
    assert TestPage.options - {"2"} == map["1" := OptionCallable(One)];
    assert Without(["1", "2"], "2") == ["1"];
  }

  /** `remove_option` refuses a key that is not an option. */
  lemma RemoveOptionAbsent()
    ensures RemoveOption(TestPage, "3") == Err(ValueError("'3' is not an option"))
  {
    assert "'" + "3" + "' is not an option" == "'3' is not an option";
  }

  /** A page may list a key twice: the order setter only asks that listed
      keys be options. */
  const DupPage: Page := Page("", "", map["1" := OptionCallable(One)], ["1", "1"], [])

  lemma DupPageValid()
    ensures Valid(DupPage)
    ensures SetOrder(DupPage.(order := []), ["1", "1"]) == Ok(DupPage)
  {
    ShowOptionShape(One);
    assert forall k :: k in DupPage.options ==> k == "1";
  }

  /** `remove_option` as written leaves the second "1" listed with no option
      behind it, so the page can no longer be shown. */
  lemma RemoveDuplicateAsWritten()
    ensures RemoveOptionAsWritten(DupPage, "1") == Ok(DupPage.(options := map[], order := ["1"]))
    ensures Render(RemoveOptionAsWritten(DupPage, "1").value) == Err(KeyError("1"))
    ensures !Valid(RemoveOptionAsWritten(DupPage, "1").value)
  {
    assert DupPage.options - {"1"} == map[];
    assert IndexOf(["1", "1"], "1") == 0;
    assert RemoveFirst(["1", "1"], "1") == ["1"];
    var q := RemoveOptionAsWritten(DupPage, "1").value;
    assert q.order[0] !in q.options;
  }

  /** The corrected removal drops every occurrence, and the page still shows. */
  lemma RemoveDuplicateCorrected()
    ensures RemoveOption(DupPage, "1") == Ok(DupPage.(options := map[], order := []))
    ensures Render(RemoveOption(DupPage, "1").value) == Ok("")
  {
    assert DupPage.options - {"1"} == map[];
    assert Without(["1", "1"], "1") == [];
    assert Layout.Heading("", "") == "";
    assert Layout.Trailer([]) == "";
  }

  /** The unit test's two messages, each shown as its own paragraph after the options. */
  lemma MessagesShown()
    ensures Layout.Trailer(["message 1", "message 2"]) == "\nmessage 1\n\nmessage 2\n"
  {
    assert Layout.Trailer(["message 2"]) == "\nmessage 2\n";
    assert "\n" + "message 1" + "\n" + "\nmessage 2\n" == "\nmessage 1\n\nmessage 2\n";
  }

  /** The browser on the test page with the default strategy. */
  lemma BrowserCases()
    ensures Browser.TakeTurn(TestPage, "quit", DefaultParse("quit")) == Browser.Quit
    ensures Browser.TakeTurn(TestPage, "1", DefaultParse("1"))
         == Browser.Call(TestPage, "1", OptionCallable(One), NoArgs)
    ensures Browser.TakeTurn(TestPage, "3", DefaultParse("3"))
         == Browser.Stay(TestPage.(messages := [TestInvalidMessage]))
  {
    DefaultProcessCase();
  }

  /** Python 2's text for iterating an instance of an old-style class. */
  const NonSequence: string := "iteration over non-sequence"

  /** An old-style instance's TypeError names no type, so `process` re-raises
      it instead of its own ValueError. */
  lemma OldStyleResultCase()
    ensures Process(TestPage, "1", Failed([], TypeError(NonSequence))).result
         == Err(TypeError(NonSequence))
  {
    NonSequenceUnrecognised();
  }

  /** The text starts with none of the three patterns' first characters. */
  lemma NonSequenceUnrecognised()
    ensures !Recognised(TypeError(NonSequence))
  {
    PieceFacts();
    assert NonSequence[0] == 'i';
    assert NonSequence[0] != NeedMoreThan[0] && NonSequence[0] != TooManyText[0];
  }

  /** A float result ends the turn with the library's fatal ValueError. */
  lemma BrowserFloatResult()
    ensures Browser.TakeTurn(TestPage, "1", NotIterable([], "float"))
         == Browser.Fail(TestPage, ValueError(ArityMessage))
  {
    InvalidParsersCase();
  }

  /** The text of a TypeError for calling a number, `'int' object is not
      callable`, written as quote, name and the rest, the form the
      not-iterable pattern's lemmas take. */
  const IntNotCallable: string := "'" + ("int" + IntNotCallableTail)
  const IntNotCallableTail: string := "' object is not callable"

  /** That text is not an unpacking failure: after the name comes
      `' object is not c...`, not `' object is not iterable`. */
  lemma IntNotCallableUnrecognised()
    ensures !Recognised(TypeError(IntNotCallable))
  {
    IntIsName();
    IntTailFacts();
    NotIterableOfQuoted("int", IntNotCallableTail);
    QuotedMatchesNoCount(IntNotCallable);
  }

  /** `int` is made of word characters. */
  lemma IntIsName()
    ensures forall i :: 0 <= i < |"int"| ==> IsWordChar("int"[i]) || "int"[i] == '.'
  {
  }

  /** The text after the name opens with a quote and then departs from the pattern. */
  lemma IntTailFacts()
    ensures |IntNotCallableTail| >= 1 && IntNotCallableTail[0] == '\''
    ensures !(NotIterableTail <= IntNotCallableTail)
  {
    PieceFacts();
    assert IntNotCallableTail[16] != NotIterableTail[16];
  }

  /** A strategy's own "not callable" TypeError is reported as a bad page object. */
  lemma BrowserNotCallable()
    ensures Browser.TakeTurn(TestPage, "1", Failed([], TypeError(IntNotCallable)))
         == Browser.Fail(TestPage, TypeError(Browser.InvalidPagesMessage))
  {
    ProcessIntNotCallable();
    IntNotCallableNamesBadPage();
  }

  /** `process` re-raises the strategy's TypeError unchanged. */
  lemma ProcessIntNotCallable()
    ensures Process(TestPage, "1", Failed([], TypeError(IntNotCallable)))
         == Processed(TestPage, Err(TypeError(IntNotCallable)))
  {
    IntNotCallableUnrecognised();
  }

  /** The text matches `_process`'s `.+is not callable`. */
  lemma IntNotCallableNamesBadPage()
    ensures Browser.NamesBadPage(IntNotCallable)
  {
    assert '\n' !in "'int' object ";
    Browser.NotCallableNamesBadPage("'int' object ");
    assert IntNotCallable == "'int' object " + "is not callable";
  }


  /** The first and last pages of the older interface's menu script. */
  const MenuPage1: LegacyPage := LegacyPage("test page", "",
    map["n" := LegacyOption("n", "next page", 1), "q" := LegacyOption("q", "quit", 2)], ["n", "q"])
  const MenuPage2: LegacyPage := LegacyPage("test page 2", "",
    map["n" := LegacyOption("n", "next page", 1), "b" := LegacyOption("b", "back", 3)], ["n", "b"])
  const MenuPage3: LegacyPage := LegacyPage("", "this is the 3rd test page",
    map["b" := LegacyOption("b", "back", 3), "h" := LegacyOption("h", "1st page", 4)], ["b", "h"])

  /** The first page's header paragraph. */
  lemma MenuPage1Heading()
    ensures Layout.Heading("test page", "") == "[test page]\n" + "\n"
  {
    assert "test page" != "";
  }

  /** The first page's option lines. */
  lemma MenuPage1Listing()
    ensures Layout.Listing(["n", "q"], MenuPage1.options, ShowLegacyOption)
         == "> n - next page\n" + "> q - quit\n"
  {
    var show := ShowLegacyOption;
    assert show(MenuPage1.options["n"]) + "\n" == "> n - next page\n";
    assert show(MenuPage1.options["q"]) + "\n" == "> q - quit\n";
    assert ["n", "q"][1..] == ["q"];
  }

  /** How the older interface shows its first page. */
  lemma MenuPage1Shown()
    ensures RenderLegacy(MenuPage1)
         == Ok("[test page]\n" + "\n" + "> n - next page\n" + "> q - quit\n")
  {
    Layout.FirstMissingNone(MenuPage1.order, MenuPage1.options.Keys);
    MenuPage1Heading();
    MenuPage1Listing();
    var h := Layout.Heading(MenuPage1.header, MenuPage1.body);
    var l := Layout.Listing(MenuPage1.order, MenuPage1.options, ShowLegacyOption);
    assert RenderLegacy(MenuPage1) == Ok(h + l);
    var h1, h2, l1, l2 := "[test page]\n", "\n", "> n - next page\n", "> q - quit\n";
    assert h + l == h1 + h2 + l1 + l2 by {
      assert h == h1 + h2 && l == l1 + l2;
    }
  }

  /** The last page's body paragraph. */
  lemma MenuPage3Heading()
    ensures Layout.Heading("", "this is the 3rd test page") == "this is the 3rd test page\n" + "\n"
  {
    assert "this is the 3rd test page" != "";
  }

  /** The last page's option lines. */
  lemma MenuPage3Listing()
    ensures Layout.Listing(["b", "h"], MenuPage3.options, ShowLegacyOption)
         == "> b - back\n" + "> h - 1st page\n"
  {
    var show := ShowLegacyOption;
    assert show(MenuPage3.options["b"]) + "\n" == "> b - back\n";
    assert show(MenuPage3.options["h"]) + "\n" == "> h - 1st page\n";
    assert ["b", "h"][1..] == ["h"];
  }

  /** How the older interface shows a page with a body and no header. */
  lemma MenuPage3Shown()
    ensures RenderLegacy(MenuPage3)
         == Ok("this is the 3rd test page\n" + "\n" + "> b - back\n" + "> h - 1st page\n")
  {
    Layout.FirstMissingNone(MenuPage3.order, MenuPage3.options.Keys);
    MenuPage3Heading();
    MenuPage3Listing();
    var h := Layout.Heading(MenuPage3.header, MenuPage3.body);
    var l := Layout.Listing(MenuPage3.order, MenuPage3.options, ShowLegacyOption);
    assert RenderLegacy(MenuPage3) == Ok(h + l);
    var h1, h2, l1, l2 := "this is the 3rd test page\n", "\n", "> b - back\n", "> h - 1st page\n";
    assert h + l == h1 + h2 + l1 + l2 by {
      assert h == h1 + h2 && l == l1 + l2;
    }
  }

  /** The menu script: "next" twice pushes the second and third pages, "back"
      returns to the second, and "1st page" returns to the first. */
  lemma MenuScript()
    ensures var m1 := Push(NewMenu(), CallableValue(MenuPage1)).value;
            var m2 := Push(m1, CallableValue(MenuPage2)).value;
            var m3 := Push(m2, CallableValue(MenuPage3)).value;
            && Current(m3) == Ok(MenuPage3)
            && Back(m3) == m2 && Current(Back(m3)) == Ok(MenuPage2)
            && Home(m3) == m1 && Current(Home(m3)) == Ok(MenuPage1)
  {
    var m1 := Push(NewMenu(), CallableValue(MenuPage1)).value;
    var m2 := Push(m1, CallableValue(MenuPage2)).value;
    PushThenBack(m2, MenuPage3);
    assert m1.stack == [MenuPage1];
  }
}

=== FILE: layout.dfy ===
/** The text layout both versions of `Page.__str__` build (shellpages.py and
    shellpages/shellpages.py): a heading, one line per listed option, and in
    the newer version one paragraph per message. */
module Layout {

  /** `[title]` and a blank line when there is a title, then the body and a
      blank line when there is a body. */
  function Heading(title: string, body: string): string {
    (if title != "" then "[" + title + "]\n\n" else "")
    + (if body != "" then body + "\n\n" else "")
  }

  /** Where the loop `for key in order: ... options[key]` first meets a key
      that is not bound: `|order|` when every key is bound. */
  function FirstMissing(order: seq<string>, keys: set<string>): (i: nat)
    ensures i <= |order|
    ensures forall j :: 0 <= j < i ==> order[j] in keys
    ensures i < |order| ==> order[i] !in keys
    decreases |order|
  {
    if |order| == 0 then 0
    else if order[0] !in keys then 0
    else FirstMissing(order[1..], keys) + 1
  }

  /** When every listed key is bound, the loop meets no unbound key. */
  lemma FirstMissingNone(order: seq<string>, keys: set<string>)
    requires forall k :: k in order ==> k in keys
    ensures FirstMissing(order, keys) == |order|
  {
  }

  /** One line per key of `order`, in that order: the string form of what the
      key is bound to, then a newline. */
  function Listing<V>(order: seq<string>, entries: map<string, V>, show: V -> string): string
    requires forall k :: k in order ==> k in entries
    decreases |order|
  {
    if |order| == 0 then ""
    else show(entries[order[0]]) + "\n" + Listing(order[1..], entries, show)
  }

  /** One paragraph per message: a blank line, the message, a newline. */
  function Trailer(messages: seq<string>): string
    decreases |messages|
  {
    if |messages| == 0 then "" else "\n" + messages[0] + "\n" + Trailer(messages[1..])
  }

  /** Listing a longer order appends the lines of the added keys. */
  lemma {:induction false} ListingAppend<V>(a: seq<string>, b: seq<string>, entries: map<string, V>, show: V -> string)
    requires forall k :: k in a ==> k in entries
    requires forall k :: k in b ==> k in entries
    ensures forall k :: k in a + b ==> k in entries
    ensures Listing(a + b, entries, show) == Listing(a, entries, show) + Listing(b, entries, show)
    decreases |a|
  {
    if |a| > 0 {
      assert (a + b)[1..] == a[1..] + b;
      ListingAppend(a[1..], b, entries, show);
    } else {
      assert a + b == b;
    }
  }

  /** Only the shown form of listed entries matters to the listing: two maps,
      even of different value types, that show alike on every listed key give
      the same listing. */
  lemma {:induction false} ListingOnlyListed<V, W>(order: seq<string>, e1: map<string, V>, show1: V -> string,
                                                   e2: map<string, W>, show2: W -> string)
    requires forall k :: k in order ==> k in e1 && k in e2 && show1(e1[k]) == show2(e2[k])
    ensures Listing(order, e1, show1) == Listing(order, e2, show2)
    decreases |order|
  {
    if |order| > 0 {
      ListingOnlyListed(order[1..], e1, show1, e2, show2);
    }
  }

  /** More messages add their paragraphs at the end. */
  lemma {:induction false} TrailerAppend(a: seq<string>, b: seq<string>)
    ensures Trailer(a + b) == Trailer(a) + Trailer(b)
    decreases |a|
  {
    if |a| > 0 {
      assert (a + b)[1..] == a[1..] + b;
      TrailerAppend(a[1..], b);
    } else {
      assert a + b == b;
    }
  }
}

=== FILE: legacy.dfy ===
/** The option and page of the older interface (shellpages.py, classes
    `Option` and `Page`), as far as they show themselves: the older page has a
    header instead of a title, no messages, and options shown as `> key - name`. */
module Legacy {
  import opened Errors
  import opened Layout
  import Options
  import Pages

  /** The older option: a key (a string, or a number shown by its text), the
      name shown to the user, and the foreign function it runs. */
  datatype LegacyOption = LegacyOption(key: string, name: string, action: nat)

  /** `str(option)`: `> key - name`. */
  function ShowLegacyOption(o: LegacyOption): string {
    "> " + o.key + " - " + o.name
  }

  /** The older page. The parse strategy is only used by the console loop. */
  datatype LegacyPage = LegacyPage(header: string, body: string,
                                   options: map<string, LegacyOption>, order: seq<string>)

  /** `str(page)`: the header and body paragraphs, then one line per key of
      `order`; the first listed key that is not bound raises KeyError. */
  function RenderLegacy(p: LegacyPage): (r: Result<string>)
    ensures r.Ok? <==> forall i :: 0 <= i < |p.order| ==> p.order[i] in p.options
    ensures r.Err? ==> exists i :: 0 <= i < |p.order| && r.error == KeyError(p.order[i])
                                  && p.order[i] !in p.options
                                  && forall j :: 0 <= j < i ==> p.order[j] in p.options
  {
    var i := FirstMissing(p.order, p.options.Keys);
    if i < |p.order| then Err(KeyError(p.order[i]))
    else Ok(Heading(p.header, p.body) + Listing(p.order, p.options, ShowLegacyOption))
  }

  /** The older rendering is the newer one with no messages: a newer page with
      the same heading, the same keys and options that show alike renders the
      same text, or fails on the same key. */
  lemma RenderLegacyAgrees(p: LegacyPage, q: Pages.Page)
    requires q.title == p.header && q.body == p.body && q.order == p.order && q.messages == []
    requires q.options.Keys == p.options.Keys
    requires forall k :: k in p.order && k in p.options ==>
               Options.Show(q.options[k]) == ShowLegacyOption(p.options[k])
    ensures RenderLegacy(p) == Pages.Render(q)
  {
    if RenderLegacy(p).Ok? {
      var h, l := Heading(p.header, p.body), Listing(p.order, p.options, ShowLegacyOption);
      ListingOnlyListed(p.order, p.options, ShowLegacyOption, q.options, Options.Show);
      Pages.RenderParts(q);
      assert Trailer([]) == "";
      assert h + l + "" == h + l;
    }
  }

  /** Where the key ends in the shown line: the space before the dash. */
  lemma LegacyLayout(o: LegacyOption)
    ensures var s := ShowLegacyOption(o);
            && |s| == |o.key| + |o.name| + 5
            && (forall j :: 0 <= j < |o.key| ==> s[2 + j] == o.key[j])
            && s[2 + |o.key|] == ' '
  {
  }

  /** The shown line of an option whose key has no space determines its key
      and its name. */
  lemma {:induction false} ShowLegacyOptionInjective(a: LegacyOption, b: LegacyOption)
    requires ' ' !in a.key && ' ' !in b.key
    requires ShowLegacyOption(a) == ShowLegacyOption(b)
    ensures a.key == b.key && a.name == b.name
  {
    var s := ShowLegacyOption(a);
    assert s == "> " + a.key + " - " + a.name;
    assert s == "> " + b.key + " - " + b.name;
    if |a.key| < |b.key| {
      LegacyLayout(a);
      LegacyLayout(b);
      assert false;
    } else if |b.key| < |a.key| {
      LegacyLayout(a);
      LegacyLayout(b);
      assert false;
    }
    assert a.key == s[2..2 + |a.key|] == b.key;
    assert a.name == s[5 + |a.key|..] == b.name;
  }
}

=== FILE: menus.dfy ===
/** The page stack of the older interface (shellpages.py, class `Menu`):
    calling the menu calls the page on top, and the options of its pages
    change the stack with `push`, `back` and `home`. */
module Menus {
  import opened Errors

  /** What `push` is handed: a callable value, or anything else. */
  datatype Candidate<P> = CallableValue(value: P) | NotCallable

  /** The stack, bottom first. `P` is whatever the pages are. */
  datatype Menu<P> = Menu(stack: seq<P>)

  /** `Menu()`: no pages yet. */
  function NewMenu<P>(): (m: Menu<P>)
    ensures |m.stack| == 0
  {
    Menu([])
  }

  /** Python's `xs[:stop]`: a negative `stop` counts from the end, and a stop
      outside the list is clamped to its ends. */
  function SliceTo<T>(xs: seq<T>, stop: int): (r: seq<T>)
    ensures r <= xs
    ensures 0 <= stop <= |xs| ==> |r| == stop
    ensures stop > |xs| ==> r == xs
    ensures -|xs| <= stop < 0 ==> |r| == |xs| + stop
    ensures stop < -|xs| ==> r == []
  {
    if stop >= 0 then (if stop > |xs| then xs else xs[..stop])
    else if |xs| + stop < 0 then []
    else xs[..|xs| + stop]
  }

  /** The `pages` property: a copy of the stack, bottom first. */
  function Pages<P>(m: Menu<P>): (r: seq<P>)
    ensures |r| == |m.stack| && forall i :: 0 <= i < |r| ==> r[i] == m.stack[i]
  {
    m.stack[..]
  }

  /** `push(page)`: a callable goes on top; anything else is refused. */
  function Push<P>(m: Menu<P>, page: Candidate<P>): (r: Result<Menu<P>>)
    ensures r.Ok? <==> page.CallableValue?
    ensures r.Err? ==> r.error == TypeError("Only callable objects can be added to the page stack.")
    ensures r.Ok? ==> |r.value.stack| == |m.stack| + 1
    ensures r.Ok? ==> r.value.stack[..|m.stack|] == m.stack
    ensures r.Ok? ==> r.value.stack[|m.stack|] == page.value
  {
    match page
    case NotCallable => Err(TypeError("Only callable objects can be added to the page stack."))
    case CallableValue(p) => Ok(Menu(m.stack + [p]))
  }

  /** `back()`: the stack without its top, by slicing, so an empty stack stays empty. */
  function Back<P>(m: Menu<P>): (r: Menu<P>)
    ensures |m.stack| == 0 ==> r == m
    ensures |m.stack| > 0 ==> r.stack + [m.stack[|m.stack| - 1]] == m.stack
  {
    Menu(SliceTo(m.stack, -1))
  }

  /** `home()`: only the first page is kept. */
  function Home<P>(m: Menu<P>): (r: Menu<P>)
    ensures |m.stack| <= 1 ==> r == m
    ensures |m.stack| >= 1 ==> r.stack == [m.stack[0]]
  {
    Menu(SliceTo(m.stack, 1))
  }

  /** `menu()` calls `self._pages[-1]`: the page on top, or IndexError when
      there is none. */
  function Current<P>(m: Menu<P>): (r: Result<P>)
    ensures r.Ok? <==> |m.stack| > 0
    ensures r.Ok? ==> r.value == m.stack[|m.stack| - 1]
    ensures r.Err? ==> r.error == IndexError("list index out of range")
  {
    if |m.stack| == 0 then Err(IndexError("list index out of range"))
    else Ok(m.stack[|m.stack| - 1])
  }

  /** `back()` applied `n` times. */
  function BackTimes<P>(m: Menu<P>, n: nat): (r: Menu<P>)
    ensures |r.stack| == if n <= |m.stack| then |m.stack| - n else 0
    ensures r.stack <= m.stack
    decreases n
  {
    if n == 0 then m else BackTimes(Back(m), n - 1)
  }

  /** A pushed page is the one the menu calls next. */
  lemma PushThenCurrent<P>(m: Menu<P>, p: P)
    ensures Push(m, CallableValue(p)).Ok?
    ensures Current(Push(m, CallableValue(p)).value) == Ok(p)
  {
  }

  /** `back()` undoes `push(page)` exactly. */
  lemma PushThenBack<P>(m: Menu<P>, p: P)
    ensures Push(m, CallableValue(p)).Ok?
    ensures Back(Push(m, CallableValue(p)).value) == m
  {
    var s := Push(m, CallableValue(p)).value.stack;
    assert s == m.stack + [p];
    assert s[..|s| - 1] == m.stack;
  }

  /** `home()` twice is `home()` once. */
  lemma HomeIdempotent<P>(m: Menu<P>)
    ensures Home(Home(m)) == Home(m)
  {
  }

  /** Pages pushed after the first do not change where `home()` leads. */
  lemma HomeAfterPush<P>(m: Menu<P>, p: P)
    requires |m.stack| >= 1
    ensures Home(Push(m, CallableValue(p)).value) == Home(m)
  {
    var s := Push(m, CallableValue(p)).value.stack;
    assert s[0] == m.stack[0];
  }

  /** Going back one page fewer times than there are pages lands where
      `home()` does: on the first page alone. */
  lemma BackToHome<P>(m: Menu<P>)
    requires |m.stack| >= 1
    ensures BackTimes(m, |m.stack| - 1) == Home(m)
  {
  }
}

=== FILE: options.dfy ===
/** An option of a page: a one-character key, a short text and the function
    the option runs (shellpages/shellpages.py, class `Option`), and the
    callables a page may hold under a key. */
module Options {
  import opened Errors
  import opened Text

  /** The longest option text the constructor accepts. */
  const MaxTextLength: nat := 72

  /** The function an option runs is foreign code; `action` names it. */
  datatype Option = Option(key: string, text: string, action: nat) {

    /** What the constructor checks: a one-character key and a short text. */
    predicate Valid() {
      |key| == 1 && |text| <= MaxTextLength
    }
  }

  /** `Option(key, text, function)`: checks the key, then the text.
      (Whether the arguments are strings and the function callable is settled
      by the types.) */
  function NewOption(key: string, text: string, action: nat): (r: Result<Option>)
    ensures r.Ok? <==> |key| == 1 && |text| <= MaxTextLength
    ensures r.Ok? ==> r.value.Valid() && r.value == Option(key, text, action)
    ensures |key| != 1 ==> r == Err(ValueError("key must be 1 character"))
    ensures |key| == 1 && |text| > MaxTextLength ==>
              r == Err(ValueError("text cannot be more than 72 characters"))
  {
    if |key| != 1 then Err(ValueError("key must be 1 character"))
    else if |text| > MaxTextLength then Err(ValueError("text cannot be more than 72 characters"))
    else Ok(Option(key, text, action))
  }

  /** `str(option)`: `[key] text`. */
  function ShowOption(o: Option): string {
    "[" + o.key + "] " + o.text
  }

  /** The rendering of a valid option starts with its bracketed key, ends with
      its text, fits in 76 characters and never looks like `<...>`. */
  lemma ShowOptionShape(o: Option)
    requires o.Valid()
    ensures var s := ShowOption(o);
            && |s| == |o.text| + 4 <= 76
            && s[0] == '[' && s[1..2] == o.key && s[2..4] == "] "
            && s[4..] == o.text
            && !AngleForm(s)
  {
  }

  /** The rendering of a valid option determines its key and its text. */
  lemma ShowOptionInjective(a: Option, b: Option)
    requires a.Valid() && b.Valid()
    requires ShowOption(a) == ShowOption(b)
    ensures a.key == b.key && a.text == b.text
  {
    ShowOptionShape(a);
    ShowOptionShape(b);
  }

  /** A value a page holds under a key: an `Option`, or any other callable,
      of which only its string form matters here. */
  datatype Callable =
    | OptionCallable(option: Option)
    | OtherCallable(id: nat, shown: string)

  /** `str(value)` of a callable held by a page. */
  function Show(c: Callable): string {
    match c
    case OptionCallable(o) => ShowOption(o)
    case OtherCallable(_, shown) => shown
  }
}

=== FILE: pages.dfy ===
/** A page of the newer library version (shellpages/shellpages.py, class
    `Page`): its validated fields, the operations that change them, and its
    string form. The parse strategy a page is built with is not stored here:
    `Dispatch.Process` takes what the strategy did as an argument. */
module Pages {
  import opened Errors
  import opened Text
  import opened Options
  import opened Layout

  /** The longest title the title setter accepts. */
  const MaxTitleLength: nat := 77

  /** The longest body line the body setter accepts. */
  const MaxBodyLineLength: nat := 79

  datatype Page = Page(
    title: string,
    body: string,
    options: map<string, Callable>,
    order: seq<string>,
    messages: seq<string>)

  /** The title setter's rule: one line of at most 77 characters. */
  predicate TitleOk(t: string) {
    '\n' !in t && |t| <= MaxTitleLength
  }

  /** The body setter's rule as the source writes it: every piece of
      `body.split('\n')` has at most 79 characters. */
  predicate BodyOk(b: string) {
    AllWithin(Lines(b), MaxBodyLineLength)
  }

  /** The order setter's rule: every listed key is bound in `options`. */
  predicate OrderOk(order: seq<string>, options: map<string, Callable>) {
    forall k :: k in order ==> k in options
  }

  /** What `add_option` accepts under a key: a one-character key and a value
      whose string form does not look like `<...>`. */
  predicate Acceptable(key: string, value: Callable) {
    |key| == 1 && !AngleForm(Show(value))
  }

  /** What the constructor, the setters and `add_option` keep true of a page. */
  predicate Valid(p: Page) {
    && TitleOk(p.title)
    && BodyOk(p.body)
    && OrderOk(p.order, p.options)
    && forall k :: k in p.options ==> Acceptable(k, p.options[k])
  }

  /** The title setter. A rejected title leaves the caller's page as it was. */
  function SetTitle(p: Page, t: string): (r: Result<Page>)
    ensures r.Ok? <==> '\n' !in t && |t| <= 77
    ensures r.Ok? ==> r.value == p.(title := t)
    ensures '\n' in t ==> r == Err(ValueError("Title must be no longer than 1 line"))
    ensures '\n' !in t && |t| > 77 ==> r == Err(ValueError("Title must be less than 78 characters"))
    ensures Valid(p) && r.Ok? ==> Valid(r.value)
  {
    if '\n' in t then Err(ValueError("Title must be no longer than 1 line"))
    else if |t| > MaxTitleLength then Err(ValueError("Title must be less than 78 characters"))
    else Ok(p.(title := t))
  }

  /** The body setter: accepted exactly when no line of the body, between
      newlines, runs longer than 79 characters. */
  function SetBody(p: Page, b: string): (r: Result<Page>)
    ensures r.Ok? <==> LinesWithin(b, 79)
    ensures r.Ok? ==> r.value == p.(body := b)
    ensures r.Err? ==> r.error == ValueError("Each line in the body must be less than 80 characters")
    ensures Valid(p) && r.Ok? ==> Valid(r.value)
  {
    LinesWithinIffAllWithin(b, MaxBodyLineLength);
    if BodyOk(b) then Ok(p.(body := b))
    else Err(ValueError("Each line in the body must be less than 80 characters"))
  }

  /** The order setter: accepted exactly when every listed key is an option. */
  function SetOrder(p: Page, order: seq<string>): (r: Result<Page>)
    ensures r.Ok? <==> forall i :: 0 <= i < |order| ==> order[i] in p.options
    ensures r.Ok? ==> r.value == p.(order := order)
    ensures r.Err? ==> r.error == ValueError("each key in order must be a key in options")
    ensures Valid(p) && r.Ok? ==> Valid(r.value)
  {
    if OrderOk(order, p.options) then Ok(p.(order := order))
    else Err(ValueError("each key in order must be a key in options"))
  }

  /** `add_option`: binds `key` to `value`, replacing any earlier binding,
      without listing it in `order`. */
  function AddOption(p: Page, key: string, value: Callable): (r: Result<Page>)
    ensures r.Ok? <==> |key| == 1 && !AngleForm(Show(value))
    ensures |key| != 1 ==> r == Err(ValueError("key must be 1 character"))
    ensures |key| == 1 && AngleForm(Show(value)) ==>
              r == Err(TypeError("option must have a valid string method wrapper"))
    ensures r.Ok? ==> key in r.value.options && r.value.options[key] == value
    ensures r.Ok? ==> forall k :: k != key ==> (k in r.value.options <==> k in p.options)
    ensures r.Ok? ==> forall k :: k != key && k in p.options ==> r.value.options[k] == p.options[k]
    ensures r.Ok? ==> r.value.(options := p.options) == p
    ensures Valid(p) && r.Ok? ==> Valid(r.value)
  {
    if |key| != 1 then Err(ValueError("key must be 1 character"))
    else if AngleForm(Show(value)) then Err(TypeError("option must have a valid string method wrapper"))
    else Ok(p.(options := p.options[key := value]))
  }

  /** `order` with every occurrence of `key` taken out. */
  function Without(order: seq<string>, key: string): (r: seq<string>)
    ensures key !in r
    ensures forall k :: k != key ==> (k in r <==> k in order)
    ensures multiset(r) == multiset(order)[key := 0]
    decreases |order|
  {
    if |order| == 0 then []
    else
      assert order == [order[0]] + order[1..];
      if order[0] == key then Without(order[1..], key)
      else [order[0]] + Without(order[1..], key)
  }

  /** Taking a key out of a joined order takes it out of both parts, so
      the remaining keys keep their relative order. */
  lemma {:induction false} WithoutAppend(a: seq<string>, b: seq<string>, key: string)
    ensures Without(a + b, key) == Without(a, key) + Without(b, key)
    decreases |a|
  {
    if |a| == 0 {
      assert a + b == b;
    } else {
      assert (a + b)[1..] == a[1..] + b;
      WithoutAppend(a[1..], b, key);
    }
  }

  /** Where `list.index(key)` finds `key`: its first occurrence. */
  function IndexOf(order: seq<string>, key: string): (i: nat)
    requires key in order
    ensures i < |order| && order[i] == key
    ensures key !in order[..i]
    decreases |order|
  {
    if order[0] == key then 0
    else
      var i := IndexOf(order[1..], key) + 1;
      assert order[..i] == [order[0]] + order[1..][..i - 1];
      i
  }

  /** Python's `list.remove(key)`: drops the first occurrence only. */
  function RemoveFirst(order: seq<string>, key: string): (r: seq<string>)
    requires key in order
    ensures |r| == |order| - 1
    ensures multiset(r) == multiset(order) - multiset{key}
    ensures exists i :: 0 <= i < |order| && order[i] == key && key !in order[..i]
                        && r == order[..i] + order[i + 1..]
  {
    var i := IndexOf(order, key);
    assert order == order[..i] + [key] + order[i + 1..];
    assert order[i] == key && key !in order[..i];
    order[..i] + order[i + 1..]
  }

  /** `remove_option`, corrected: unbinds `key` and takes every occurrence of
      it out of `order`, so the page's order stays within its options. */
  function RemoveOption(p: Page, key: string): (r: Result<Page>)
    ensures r.Ok? <==> key in p.options
    ensures key !in p.options ==> r == Err(ValueError("'" + key + "' is not an option"))
    ensures r.Ok? ==> r.value.options == p.options - {key}
    ensures r.Ok? ==> key !in r.value.order
    ensures r.Ok? ==> multiset(r.value.order) == multiset(p.order)[key := 0]
    ensures r.Ok? ==> r.value.order == Without(p.order, key)
    ensures r.Ok? ==> r.value.(options := p.options, order := p.order) == p
    ensures Valid(p) && r.Ok? ==> Valid(r.value)
  {
    if key !in p.options then Err(ValueError("'" + key + "' is not an option"))
    else Ok(p.(options := p.options - {key}, order := Without(p.order, key)))
  }

  /** `remove_option` as shellpages/shellpages.py writes it: `list.remove`
      takes only the first occurrence of `key` out of `order`. */
  function RemoveOptionAsWritten(p: Page, key: string): (r: Result<Page>)
    ensures r.Ok? <==> key in p.options
    ensures key !in p.options ==> r == Err(ValueError("'" + key + "' is not an option"))
    ensures r.Ok? ==> r.value.options == p.options - {key}
    ensures r.Ok? ==> multiset(r.value.order) == multiset(p.order) - multiset{key}
    ensures r.Ok? && key in p.order ==>
              exists i :: 0 <= i < |p.order| && p.order[i] == key && key !in p.order[..i]
                          && r.value.order == p.order[..i] + p.order[i + 1..]
    ensures r.Ok? && key !in p.order ==> r.value.order == p.order
    ensures r.Ok? ==> r.value.(options := p.options, order := p.order) == p
  {
    if key !in p.options then Err(ValueError("'" + key + "' is not an option"))
    else
      var order := if key in p.order then RemoveFirst(p.order, key) else p.order;
      Ok(p.(options := p.options - {key}, order := order))
  }

  /** `add_message`. */
  function AddMessage(p: Page, m: string): (r: Page)
    ensures r.messages == p.messages + [m]
    ensures r.(messages := p.messages) == p
  {
    p.(messages := p.messages + [m])
  }

  /** `remove_messages`. */
  function RemoveMessages(p: Page): (r: Page)
    ensures r.messages == []
    ensures r.(messages := p.messages) == p
  {
    p.(messages := [])
  }

  /** The page every field is then set on: no title, body, options, order or messages. */
  const Blank: Page := Page("", "", map[], [], [])

  /** `Page(title, body, options, order)`: sets the title, the body, each
      option and the order, in that sequence, each through its check. */
  function NewPage(title: string, body: string, options: map<string, Callable>, order: seq<string>): (r: Result<Page>)
    ensures r.Ok? <==>
              && TitleOk(title) && LinesWithin(body, 79)
              && (forall k :: k in options ==> |k| == 1 && !AngleForm(Show(options[k])))
              && (forall i :: 0 <= i < |order| ==> order[i] in options)
    ensures r.Ok? ==> Valid(r.value) && r.value == Page(title, body, options, order, [])
    ensures !TitleOk(title) ==> r == SetTitle(Blank, title).PropagateFailure()
  {
    var p1 :- SetTitle(Blank, title);
    var p2 :- SetBody(p1, body);
    if exists k :: k in options && |k| != 1 then Err(ValueError("key must be 1 character"))
    else if exists k :: k in options && AngleForm(Show(options[k])) then
      Err(TypeError("option must have a valid string method wrapper"))
    else
      SetOrder(p2.(options := options), order)
  }

  /** `str(page)`: the heading, one line per listed option, one paragraph per
      message. Looking up a listed key that is not bound raises `KeyError`,
      which the first unbound key of `order` does. */
  function Render(p: Page): (r: Result<string>)
    ensures r.Ok? <==> forall i :: 0 <= i < |p.order| ==> p.order[i] in p.options
    ensures r.Err? ==> exists i :: 0 <= i < |p.order| && r.error == KeyError(p.order[i])
                                  && p.order[i] !in p.options
                                  && forall j :: 0 <= j < i ==> p.order[j] in p.options
  {
    var i := FirstMissing(p.order, p.options.Keys);
    if i < |p.order| then Err(KeyError(p.order[i]))
    else Ok(Heading(p.title, p.body) + Listing(p.order, p.options, Show) + Trailer(p.messages))
  }

  /** A page whose listed keys are all bound renders as heading, listing and
      trailer. This only unfolds `Render` for the proofs below; the properties
      a reader can use are the lemmas that follow. */
  lemma RenderParts(p: Page)
    requires OrderOk(p.order, p.options)
    ensures Render(p) == Ok(Heading(p.title, p.body) + Listing(p.order, p.options, Show) + Trailer(p.messages))
  {
    FirstMissingNone(p.order, p.options.Keys);
  }

  /** A page with messages renders as the page without them, followed by one
      paragraph per message: clearing the messages restores the plain form. */
  lemma RenderWithMessages(p: Page)
    requires Render(p).Ok?
    ensures Render(RemoveMessages(p)).Ok?
    ensures Render(p).value == Render(RemoveMessages(p)).value + Trailer(p.messages)
  {
    var h, l := Heading(p.title, p.body), Listing(p.order, p.options, Show);
    RenderParts(p);
    RenderParts(RemoveMessages(p));
    assert Trailer([]) == "";
    assert Render(RemoveMessages(p)).value == h + l;
  }

  /** Adding a message appends `"\n" + m + "\n"` to the rendering. */
  lemma RenderAddMessage(p: Page, m: string)
    requires Render(p).Ok?
    ensures Render(AddMessage(p, m)) == Ok(Render(p).value + "\n" + m + "\n")
  {
    var h, l, t := Heading(p.title, p.body), Listing(p.order, p.options, Show), Trailer(p.messages);
    RenderParts(p);
    RenderParts(AddMessage(p, m));
    TrailerAppend(p.messages, [m]);
    var t2 := "\n" + m + "\n";
    assert Trailer([m]) == t2;
    var x := h + l + t;
    assert Render(p).value == x;
    assert Render(AddMessage(p, m)).value == h + l + (t + t2);
    assert h + l + (t + t2) == x + t2;
    assert x + t2 == x + "\n" + m + "\n";
  }

  /** Binding a key that `order` does not list leaves the rendering as it was. */
  lemma RenderAddUnlistedOption(p: Page, key: string, value: Callable)
    requires Render(p).Ok?
    requires key !in p.order
    requires AddOption(p, key, value).Ok?
    ensures Render(AddOption(p, key, value).value) == Render(p)
  {
    var q := AddOption(p, key, value).value;
    assert q == p.(options := p.options[key := value]);
    assert forall k :: k in p.order ==> k != key && k in q.options && q.options[k] == p.options[k];
    RenderParts(p);
    RenderParts(q);
    ListingOnlyListed(p.order, p.options, Show, q.options, Show);
  }

  /** Listing one more key adds its option line after the others. */
  lemma RenderListOneMore(p: Page, key: string)
    requires Render(p).Ok?
    requires key in p.options
    ensures SetOrder(p, p.order + [key]).Ok?
    ensures Render(SetOrder(p, p.order + [key]).value)
            == Ok(Heading(p.title, p.body) + Listing(p.order, p.options, Show)
                  + Show(p.options[key]) + "\n" + Trailer(p.messages))
  {
    var h, l, t := Heading(p.title, p.body), Listing(p.order, p.options, Show), Trailer(p.messages);
    var line := Show(p.options[key]);
    RenderParts(p);
    RenderParts(p.(order := p.order + [key]));
    ListingAppend(p.order, [key], p.options, Show);
    assert Listing([key], p.options, Show) == line + "\n";
    assert h + (l + (line + "\n")) + t == h + l + line + "\n" + t;
  }

  /** The corrected removal keeps a page valid even when its order lists the
      key more than once. */
  lemma RemoveOptionKeepsRender(p: Page, key: string)
    requires Valid(p) && key in p.options
    ensures Render(RemoveOption(p, key).value).Ok?
  {
  }

  /** Where the key is listed at most once, the source's removal and the
      corrected one agree. */
  lemma RemoveOptionAgreesWhenListedOnce(p: Page, key: string)
    requires multiset(p.order)[key] <= 1
    ensures RemoveOptionAsWritten(p, key) == RemoveOption(p, key)
  {
    if key in p.options && key in p.order {
      RemoveFirstOfSingle(p.order, key);
    } else if key in p.options {
      WithoutOfAbsent(p.order, key);
    }
  }

  /** For a key listed once, dropping the first occurrence drops them all. */
  lemma RemoveFirstOfSingle(order: seq<string>, key: string)
    requires key in order && multiset(order)[key] <= 1
    ensures RemoveFirst(order, key) == Without(order, key)
  {
    var i := IndexOf(order, key);
    var a, b := order[..i], order[i + 1..];
    SplitAt(order, i);
    OnceListed(a, key, b);
    WithoutAround(order, a, key, b);
  }

  /** A sequence is the part before an index, the element there, and the rest. */
  lemma SplitAt<T>(xs: seq<T>, i: nat)
    requires i < |xs|
    ensures xs == xs[..i] + ([xs[i]] + xs[i + 1..])
  {
  }

  /** A key listed once, between two parts, is in neither part. */
  lemma OnceListed(a: seq<string>, key: string, b: seq<string>)
    requires multiset(a + ([key] + b))[key] <= 1
    ensures key !in a && key !in b
  {
    CountOfSplit(a, key, b);
    assert multiset(a)[key] == 0 && multiset(b)[key] == 0;
  }

  /** Taking a key out of an order that lists it once, between two parts
      without it, joins the parts. */
  lemma WithoutAround(order: seq<string>, a: seq<string>, key: string, b: seq<string>)
    requires order == a + ([key] + b)
    requires key !in a && key !in b
    ensures Without(order, key) == a + b
  {
    WithoutOfAbsent(a, key);
    WithoutOfAbsent(b, key);
    WithoutAppend(a, [key] + b, key);
    WithoutAppend([key], b, key);
    assert Without([key], key) == [];
    assert Without([key] + b, key) == b;
  }

  lemma CountOfSplit(a: seq<string>, key: string, b: seq<string>)
    ensures multiset(a + ([key] + b))[key] == multiset(a)[key] + 1 + multiset(b)[key]
  {
    assert multiset(a + ([key] + b)) == multiset(a) + multiset{key} + multiset(b);
  }

  /** Taking out a key that is not there changes nothing. */
  lemma {:induction false} WithoutOfAbsent(order: seq<string>, key: string)
    requires key !in order
    ensures Without(order, key) == order
    decreases |order|
  {
    if |order| > 0 {
      WithoutOfAbsent(order[1..], key);
      assert order == [order[0]] + order[1..];
    }
  }

  /** Every line of a valid page without long entries or messages fits an
      80-column console: the title line has at most 79 characters with its
      brackets, the body lines at most 79, the option lines their own length. */
  lemma RenderFitsConsole(p: Page)
    requires Valid(p)
    requires forall k :: k in p.order ==> |Show(p.options[k])| <= 79
    requires forall i :: 0 <= i < |p.messages| ==> LinesWithin(p.messages[i], 79)
    ensures Render(p).Ok?
    ensures LinesWithin(Render(p).value, 79)
  {
    var h := Heading(p.title, p.body);
    var l := Listing(p.order, p.options, Show);
    var t := Trailer(p.messages);
    RenderParts(p);
    HeadingFits(p.title, p.body);
    ListingFits(p.order, p.options);
    TrailerFits(p.messages);
    WithinConcat(h, l, 79);
    assert |h + l| == 0 || (h + l)[|h + l| - 1] == '\n';
    WithinConcat(h + l, t, 79);
  }

  lemma HeadingFits(title: string, body: string)
    requires TitleOk(title) && BodyOk(body)
    ensures LinesWithin(Heading(title, body), 79)
    ensures |Heading(title, body)| == 0 || Heading(title, body)[|Heading(title, body)| - 1] == '\n'
  {
    var a := if title != "" then "[" + title + "]\n\n" else "";
    var b := if body != "" then body + "\n\n" else "";
    assert Heading(title, body) == a + b;
    if title != "" {
      var line := "[" + title + "]";
      ShortWithin(line, 79);
      WithinThenNewline(line, 79);
      WithinThenNewline(line + "\n", 79);
      assert a == line + "\n" + "\n";
    }
    LinesWithinIffAllWithin(body, 79);
    if body != "" {
      WithinThenNewline(body, 79);
      WithinThenNewline(body + "\n", 79);
      assert b == body + "\n" + "\n";
    }
    WithinConcat(a, b, 79);
  }

  lemma {:induction false} ListingFits(order: seq<string>, options: map<string, Callable>)
    requires forall k :: k in order ==> k in options && |Show(options[k])| <= 79
    ensures LinesWithin(Listing(order, options, Show), 79)
    ensures var l := Listing(order, options, Show); |l| == 0 || l[|l| - 1] == '\n'
    decreases |order|
  {
    if |order| > 0 {
      var line := Show(options[order[0]]);
      ListingFits(order[1..], options);
      ShortWithin(line, 79);
      WithinThenNewline(line, 79);
      WithinConcat(line + "\n", Listing(order[1..], options, Show), 79);
    }
  }

  lemma {:induction false} TrailerFits(messages: seq<string>)
    requires forall i :: 0 <= i < |messages| ==> LinesWithin(messages[i], 79)
    ensures LinesWithin(Trailer(messages), 79)
    decreases |messages|
  {
    if |messages| > 0 {
      var m := messages[0];
      TrailerFits(messages[1..]);
      ShortWithin("\n", 79);
      WithinConcat("\n", m, 79);
      WithinThenNewline("\n" + m, 79);
      WithinConcat("\n" + m + "\n", Trailer(messages[1..]), 79);
    }
  }

  /** A text that does not start with `<` does not look like `<...>`. */
  lemma NotAngleByFirst(s: string)
    requires |s| == 0 || s[0] != '<'
    ensures !AngleForm(s)
  {
    if AngleForm(s) {
      AngleFormOneLine(s);
    }
  }

  /** A text with a newline before its last character does not look like `<...>`. */
  lemma NotAngleByNewline(s: string, i: nat)
    requires i < |s| - 1 && s[i] == '\n'
    ensures !AngleForm(s)
  {
    if AngleForm(s) {
      AngleFormOneLine(s);
    }
  }

  /** The string form of a page whose listed values pass `add_option`'s check
      never looks like `<...>`, so the browser's display check never rejects it. */
  lemma RenderNeverAngle(p: Page)
    requires forall k :: k in p.order ==> k in p.options && !AngleForm(Show(p.options[k]))
    ensures Render(p).Ok?
    ensures !AngleForm(Render(p).value)
  {
    RenderParts(p);
    var h := Heading(p.title, p.body);
    var l := Listing(p.order, p.options, Show);
    var t := Trailer(p.messages);
    assert h + l + t == h + (l + t);
    if p.title != "" {
      HeadingAfterTitle(p.title, p.body, l + t);
    } else if p.body != "" {
      assert h == p.body + "\n\n";
      HeadingAfterBody(p.body, l + t);
    } else {
      assert h == "";
      assert h + (l + t) == l + t;
      ListingNeverAngle(p.order, p.options, t);
    }
  }

  lemma HeadingAfterTitle(title: string, body: string, rest: string)
    requires title != ""
    ensures !AngleForm(Heading(title, body) + rest)
  {
    var s := Heading(title, body) + rest;
    assert s[0] == '[';
    NotAngleByFirst(s);
  }

  lemma HeadingAfterBody(body: string, rest: string)
    requires body != ""
    ensures !AngleForm(body + "\n\n" + rest)
  {
    var s := body + "\n\n" + rest;
    assert s[|body|] == '\n';
    NotAngleByNewline(s, |body|);
  }

  /** Option lines, then message paragraphs, never look like `<...>` when no
      listed value does. */
  lemma ListingNeverAngle(order: seq<string>, options: map<string, Callable>, t: string)
    requires forall k :: k in order ==> k in options && !AngleForm(Show(options[k]))
    requires |t| == 0 || t[0] == '\n'
    ensures !AngleForm(Listing(order, options, Show) + t)
  {
    var s := Listing(order, options, Show) + t;
    if |order| == 0 {
      assert s == t;
      NotAngleByFirst(s);
    } else {
      assert order[0] in order;
      var line := Show(options[order[0]]);
      var rest := Listing(order[1..], options, Show) + t;
      assert s == line + "\n" + rest;
      if |rest| == 0 {
        assert s == line + "\n";
        if AngleForm(s) {
          AngleFormDropNewline(line);
        }
      } else {
        assert s[|line|] == '\n';
        NotAngleByNewline(s, |line|);
      }
    }
  }
}

=== FILE: pyrepr.dfy ===
/** Python 2's `repr` of a byte string and `str` of a list of them — the text
    `str(self.order)` puts into the page's invalid-input message — together
    with a reader that recovers the list from that text. */
module PyRepr {
  import opened Errors

  const HexDigits: string := "0123456789abcdef"

  function Pow16(w: nat): (r: nat)
    ensures r >= 1
  {
    if w == 0 then 1 else 16 * Pow16(w - 1)
  }

  /** The low `width` hex digits of `n`, lower case, most significant first
      (C's `%0*x`). */
  function Hex(n: nat, width: nat): (r: string)
    ensures |r| == width
    decreases width
  {
    if width == 0 then "" else Hex(n / 16, width - 1) + [HexDigits[n % 16]]
  }

  /** The value of one lower-case hex digit. */
  function HexDigitValue(c: char): Maybe<nat> {
    if '0' <= c <= '9' then Just(c as int - '0' as int)
    else if 'a' <= c <= 'f' then Just(c as int - 'a' as int + 10)
    else Nothing
  }

  /** The value of a string of lower-case hex digits. */
  function ParseHex(s: string): Maybe<nat>
    decreases |s|
  {
    if |s| == 0 then Just(0)
    else
      match (ParseHex(s[..|s| - 1]), HexDigitValue(s[|s| - 1]))
      case (Just(high), Just(d)) => Just(high * 16 + d)
      case _ => Nothing
  }

  lemma HexDigitRoundTrip(d: nat)
    requires d < 16
    ensures HexDigitValue(HexDigits[d]) == Just(d)
  {
  }

  /** Reading back the digits of a number that fits in `width` digits gives the number. */
  lemma {:induction false} ParseHexOfHex(n: nat, width: nat)
    requires n < Pow16(width)
    ensures ParseHex(Hex(n, width)) == Just(n)
    decreases width
  {
    if width > 0 {
      var p := Pow16(width - 1);
      assert n / 16 < p;
      ParseHexOfHex(n / 16, width - 1);
      var s := Hex(n, width);
      assert s[..|s| - 1] == Hex(n / 16, width - 1);
      HexDigitRoundTrip(n % 16);
    }
  }

  /** The quote Python 2 puts around a string: a single quote, unless the
      string holds a single quote and no double quote. */
  function QuoteFor(s: string): char {
    if '\'' in s && '"' !in s then '"' else '\''
  }

  /** How `c` is written inside a literal quoted with `q`: the quote and the
      backslash behind a backslash, tab, newline and carriage return by name,
      other control and non-ASCII characters in hex, the rest as themselves. */
  function EscapeChar(c: char, q: char): (r: string)
    requires q == '\'' || q == '"'
    ensures |r| >= 1 && r[0] != q
  {
    if c == q || c == '\\' then ['\\', c]
    else if c == '\t' then "\\t"
    else if c == '\n' then "\\n"
    else if c == '\r' then "\\r"
    else if c < ' ' || c as int >= 0x7f then
      if c as int < 0x100 then "\\x" + Hex(c as int, 2)
      else if c as int < 0x1_0000 then "\\u" + Hex(c as int, 4)
      else "\\U" + Hex(c as int, 8)
    else [c]
  }

  /** The characters of `s`, each escaped for a literal quoted with `q`. */
  function Escape(s: string, q: char): string
    requires q == '\'' || q == '"'
    decreases |s|
  {
    if |s| == 0 then "" else EscapeChar(s[0], q) + Escape(s[1..], q)
  }

  /** Python 2's `repr(s)` for a byte string `s`. */
  function StrRepr(s: string): string {
    var q := QuoteFor(s);
    [q] + Escape(s, q) + [q]
  }

  /** The items of a list, `repr` of each, separated by `", "`. */
  function Items(xs: seq<string>): string
    decreases |xs|
  {
    if |xs| == 0 then ""
    else if |xs| == 1 then StrRepr(xs[0])
    else StrRepr(xs[0]) + ", " + Items(xs[1..])
  }

  /** Python 2's `str(xs)` for a list of byte strings, e.g. `['1', '2']`. */
  function ListRepr(xs: seq<string>): string {
    "[" + Items(xs) + "]"
  }

  /** A code point Dafny's `char` can hold. */
  predicate IsScalar(n: int) {
    0 <= n < 0xD800 || 0xE000 <= n < 0x11_0000
  }

  /** Reads `width` hex digits at the front of `s` as one character. */
  function ReadHexChar(s: string, width: nat): (r: Maybe<(char, string)>)
    ensures r.Just? ==> |r.value.1| == |s| - width
  {
    if |s| < width then Nothing
    else
      match ParseHex(s[..width])
      case Just(n) => if IsScalar(n) then Just((n as char, s[width..])) else Nothing
      case Nothing => Nothing
  }

  /** Reads one character, escaped or not, of a literal quoted with `q`. */
  function ReadChar(s: string, q: char): (r: Maybe<(char, string)>)
    requires |s| >= 1
    ensures r.Just? ==> |r.value.1| < |s|
  {
    if s[0] != '\\' then Just((s[0], s[1..]))
    else if |s| < 2 then Nothing
    else
      var e, rest := s[1], s[2..];
      if e == q || e == '\\' then Just((e, rest))
      else if e == 't' then Just(('\t', rest))
      else if e == 'n' then Just(('\n', rest))
      else if e == 'r' then Just(('\r', rest))
      else if e == 'x' then ReadHexChar(rest, 2)
      else if e == 'u' then ReadHexChar(rest, 4)
      else if e == 'U' then ReadHexChar(rest, 8)
      else Nothing
  }

  /** Reads the characters of a literal up to its closing quote `q`; gives the
      string read and the text after the quote. */
  function ReadBody(s: string, q: char): (r: Maybe<(string, string)>)
    ensures r.Just? ==> |r.value.1| < |s|
    decreases |s|
  {
    if |s| == 0 then Nothing
    else if s[0] == q then Just(("", s[1..]))
    else
      match ReadChar(s, q)
      case Nothing => Nothing
      case Just((c, rest)) =>
        match ReadBody(rest, q)
        case Nothing => Nothing
        case Just((t, after)) => Just(([c] + t, after))
  }

  /** Reads one quoted string literal at the front of `s`. */
  function ReadStr(s: string): (r: Maybe<(string, string)>)
    ensures r.Just? ==> |r.value.1| < |s|
  {
    if |s| >= 1 && (s[0] == '\'' || s[0] == '"') then ReadBody(s[1..], s[0]) else Nothing
  }

  /** Reads `item, item, ..., item]` up to the end of `s`. */
  function ReadItems(s: string): Maybe<seq<string>>
    decreases |s|
  {
    match ReadStr(s)
    case Nothing => Nothing
    case Just((x, after)) =>
      if after == "]" then Just([x])
      else if |after| >= 2 && after[..2] == ", " then
        match ReadItems(after[2..])
        case Nothing => Nothing
        case Just(xs) => Just([x] + xs)
      else Nothing
  }

  /** Reads the text of a list of strings back into the list. */
  function ReadList(t: string): Maybe<seq<string>> {
    if t == "[]" then Just([])
    else if |t| >= 1 && t[0] == '[' then ReadItems(t[1..])
    else Nothing
  }

  /** A character written as a hex escape of `w` digits reads back as itself. */
  lemma ReadHexEscape(c: char, w: nat, rest: string)
    requires c as int < Pow16(w)
    ensures ReadHexChar(Hex(c as int, w) + rest, w) == Just((c, rest))
  {
    var s := Hex(c as int, w) + rest;
    assert s[..w] == Hex(c as int, w);
    assert s[w..] == rest;
    ParseHexOfHex(c as int, w);
  }

  /** A character escaped by name (the quote, the backslash, tab, newline,
      carriage return) reads back as itself. */
  lemma ReadCharOfNamedEscape(c: char, q: char, rest: string)
    requires q == '\'' || q == '"'
    requires c == q || c == '\\' || c == '\t' || c == '\n' || c == '\r'
    ensures ReadChar(EscapeChar(c, q) + rest, q) == Just((c, rest))
  {
    var e := EscapeChar(c, q);
    assert |e| == 2 && e[0] == '\\';
    var s := e + rest;
    assert s[0] == '\\' && s[1] == e[1];
    assert s[2..] == rest;
  }

  /** A backslash and the letter naming a width of `w` digits hand the rest
      to the hex reader. */
  lemma ReadCharOfHexLetter(s: string, q: char, letter: char, w: nat)
    requires q == '\'' || q == '"'
    requires (letter, w) == ('x', 2) || (letter, w) == ('u', 4) || (letter, w) == ('U', 8)
    requires |s| >= 2 && s[0] == '\\' && s[1] == letter
    ensures ReadChar(s, q) == ReadHexChar(s[2..], w)
  {
  }

  /** A backslash, the letter naming a width of `w` digits, and `w` hex
      digits read back as the character they encode. */
  lemma ReadCharOfHexDigits(c: char, q: char, letter: char, w: nat, rest: string)
    requires q == '\'' || q == '"'
    requires (letter, w) == ('x', 2) || (letter, w) == ('u', 4) || (letter, w) == ('U', 8)
    requires c as int < Pow16(w)
    ensures ReadChar(['\\', letter] + Hex(c as int, w) + rest, q) == Just((c, rest))
  {
    var s := ['\\', letter] + Hex(c as int, w) + rest;
    assert s[0] == '\\' && s[1] == letter;
    assert s[2..] == Hex(c as int, w) + rest;
    ReadCharOfHexLetter(s, q, letter, w);
    ReadHexEscape(c, w, rest);
  }

  /** A character escaped in hex reads back as itself. */
  lemma ReadCharOfHexEscape(c: char, q: char, rest: string)
    requires q == '\'' || q == '"'
    requires c != q && c != '\\' && c != '\t' && c != '\n' && c != '\r'
    requires c < ' ' || c as int >= 0x7f
    ensures ReadChar(EscapeChar(c, q) + rest, q) == Just((c, rest))
  {
    if c as int < 0x100 {
      assert Pow16(2) == 0x100;
      assert EscapeChar(c, q) == ['\\', 'x'] + Hex(c as int, 2);
      ReadCharOfHexDigits(c, q, 'x', 2, rest);
    } else if c as int < 0x1_0000 {
      assert Pow16(4) == 0x1_0000;
      assert EscapeChar(c, q) == ['\\', 'u'] + Hex(c as int, 4);
      ReadCharOfHexDigits(c, q, 'u', 4, rest);
    } else {
      assert Pow16(8) == 0x1_0000_0000;
      assert EscapeChar(c, q) == ['\\', 'U'] + Hex(c as int, 8);
      ReadCharOfHexDigits(c, q, 'U', 8, rest);
    }
  }

  /** One escaped character reads back as itself. */
  lemma ReadCharOfEscape(c: char, q: char, rest: string)
    requires q == '\'' || q == '"'
    ensures ReadChar(EscapeChar(c, q) + rest, q) == Just((c, rest))
  {
    if c == q || c == '\\' || c == '\t' || c == '\n' || c == '\r' {
      ReadCharOfNamedEscape(c, q, rest);
    } else if c < ' ' || c as int >= 0x7f {
      ReadCharOfHexEscape(c, q, rest);
    } else {
      var s := EscapeChar(c, q) + rest;
      assert EscapeChar(c, q) == [c];
      assert s[1..] == rest;
    }
  }

  /** A step of `ReadBody`: a character that is not the closing quote, then
      the rest of the literal. */
  lemma ReadBodyStep(t: string, q: char, c: char, tail: string, u: string, after: string)
    requires |t| >= 1 && t[0] != q
    requires ReadChar(t, q) == Just((c, tail))
    requires ReadBody(tail, q) == Just((u, after))
    ensures ReadBody(t, q) == Just(([c] + u, after))
  {
  }

  /** The escaped text of a non-empty string, with what follows it, starts
      with its first character escaped. */
  lemma EscapeFront(s: string, q: char, rest: string)
    requires q == '\'' || q == '"'
    requires |s| >= 1
    ensures var t := Escape(s, q) + [q] + rest;
            && t == EscapeChar(s[0], q) + (Escape(s[1..], q) + [q] + rest)
            && t[0] != q
  {
    var e, more := EscapeChar(s[0], q), Escape(s[1..], q);
    assert Escape(s, q) == e + more;
    JoinFront(e, more, [q] + rest, q);
  }

  /** Text that starts with a piece not starting with `q` does not start with `q`. */
  lemma JoinFront(e: string, more: string, tail: string, q: char)
    requires |e| >= 1 && e[0] != q
    ensures e + more + tail == e + (more + tail)
    ensures (e + more + tail)[0] != q
  {
  }

  /** An escaped string followed by its closing quote reads back as the string. */
  lemma {:induction false} ReadBodyOfEscape(s: string, q: char, rest: string)
    requires q == '\'' || q == '"'
    ensures ReadBody(Escape(s, q) + [q] + rest, q) == Just((s, rest))
    decreases |s|
  {
    var t := Escape(s, q) + [q] + rest;
    if |s| == 0 {
      assert t[1..] == rest;
    } else {
      var tail := Escape(s[1..], q) + [q] + rest;
      EscapeFront(s, q, rest);
      ReadCharOfEscape(s[0], q, tail);
      ReadBodyOfEscape(s[1..], q, rest);
      ReadBodyStep(t, q, s[0], tail, s[1..], rest);
      assert [s[0]] + s[1..] == s;
    }
  }

  /** `repr(s)` reads back as `s`, leaving what follows untouched. */
  lemma ReadStrOfRepr(s: string, rest: string)
    ensures ReadStr(StrRepr(s) + rest) == Just((s, rest))
  {
    var q := QuoteFor(s);
    var t := StrRepr(s) + rest;
    assert t[1..] == Escape(s, q) + [q] + rest;
    ReadBodyOfEscape(s, q, rest);
  }

  /** One item and the separator, then the rest of the items. */
  lemma ReadItemsStep(s: string, x: string, more: string, ys: seq<string>)
    requires ReadStr(s) == Just((x, ", " + more))
    requires ReadItems(more) == Just(ys)
    ensures ReadItems(s) == Just([x] + ys)
  {
    assert (", " + more)[..2] == ", ";
    assert (", " + more)[2..] == more;
  }

  /** The text of two or more items: the first, the separator, the rest. */
  lemma ItemsFront(xs: seq<string>)
    requires |xs| >= 2
    ensures Items(xs) + "]" == StrRepr(xs[0]) + (", " + (Items(xs[1..]) + "]"))
  {
  }

  lemma {:induction false} ReadItemsOfItems(xs: seq<string>)
    requires |xs| >= 1
    ensures ReadItems(Items(xs) + "]") == Just(xs)
    decreases |xs|
  {
    if |xs| == 1 {
      assert Items(xs) + "]" == StrRepr(xs[0]) + "]";
      ReadStrOfRepr(xs[0], "]");
      assert xs == [xs[0]];
    } else {
      var more := Items(xs[1..]) + "]";
      ItemsFront(xs);
      ReadStrOfRepr(xs[0], ", " + more);
      ReadItemsOfItems(xs[1..]);
      ReadItemsStep(Items(xs) + "]", xs[0], more, xs[1..]);
      assert [xs[0]] + xs[1..] == xs;
    }
  }

  /** A list with an item has some text between its brackets. */
  lemma ItemsNotEmpty(xs: seq<string>)
    requires |xs| >= 1
    ensures |Items(xs)| >= 2
  {
    assert |StrRepr(xs[0])| >= 2;
  }

  /** The text of a list of strings determines the list: reading it back
      gives the list, so distinct key orders give distinct messages. */
  lemma ReadListOfListRepr(xs: seq<string>)
    ensures ReadList(ListRepr(xs)) == Just(xs)
  {
    if |xs| >= 1 {
      var t := ListRepr(xs);
      ItemsNotEmpty(xs);
      assert t[0] == '[' && t[1..] == Items(xs) + "]";
      assert t != "[]" by { assert |t| > 2; }
      ReadItemsOfItems(xs);
    }
  }

  lemma ListReprInjective(xs: seq<string>, ys: seq<string>)
    requires ListRepr(xs) == ListRepr(ys)
    ensures xs == ys
  {
    ReadListOfListRepr(xs);
    ReadListOfListRepr(ys);
    assert Just(xs) == ReadList(ListRepr(ys)) == Just(ys);
  }
}

=== FILE: text.dfy ===
/** String facts the library relies on: Python's `split('\n')`, the length of
    the lines of a text, and the `^<.+>$` pattern the library uses to spot an
    object whose string form is Python's default `<... object at ...>`. */
module Text {

  /** Index of the first newline of `s`. */
  function FirstNewline(s: string): (i: nat)
    requires '\n' in s
    ensures i < |s| && s[i] == '\n'
    ensures '\n' !in s[..i]
  {
    if s[0] == '\n' then 0
    else
      assert s == [s[0]] + s[1..];
      var i := FirstNewline(s[1..]) + 1;
      assert s[..i] == [s[0]] + s[1..][..i - 1];
      i
  }

  /** Python's `s.split('\n')`: the pieces between newlines, at least one. */
  function Lines(s: string): (ls: seq<string>)
    ensures |ls| >= 1
    ensures forall k :: 0 <= k < |ls| ==> '\n' !in ls[k]
    decreases |s|
  {
    if '\n' !in s then [s]
    else
      var i := FirstNewline(s);
      [s[..i]] + Lines(s[i + 1..])
  }

  /** Python's `'\n'.join(ls)`. */
  function JoinLines(ls: seq<string>): string
    decreases |ls|
  {
    if |ls| == 0 then ""
    else if |ls| == 1 then ls[0]
    else ls[0] + "\n" + JoinLines(ls[1..])
  }

  /** The first newline of a text that starts with a newline-free line. */
  lemma FirstNewlineAfterLine(a: string, b: string)
    requires '\n' !in a
    ensures '\n' in a + "\n" + b
    ensures FirstNewline(a + "\n" + b) == |a|
  {
    var s := a + "\n" + b;
    assert s[|a|] == '\n';
    forall k | 0 <= k < |a| ensures s[k] != '\n' {
      assert s[k] == a[k];
    }
    var i := FirstNewline(s);
    assert i <= |a| ==> s[..i] == a[..i];
  }

  /** Joining a piece in front of at least one more piece puts a newline between. */
  lemma JoinLinesCons(a: string, ls: seq<string>)
    requires |ls| >= 1
    ensures JoinLines([a] + ls) == a + "\n" + JoinLines(ls)
  {
    assert ([a] + ls)[1..] == ls;
  }

  /** Joining the pieces of a split gives back the text. */
  lemma {:induction false} JoinLinesOfLines(s: string)
    ensures JoinLines(Lines(s)) == s
    decreases |s|
  {
    if '\n' in s {
      var i := FirstNewline(s);
      var a, rest := s[..i], s[i + 1..];
      var ls := Lines(rest);
      assert Lines(s) == [a] + ls;
      JoinLinesOfLines(rest);
      JoinLinesCons(a, ls);
      assert s == a + "\n" + rest;
    }
  }

  /** Splitting newline-free pieces joined by newlines gives back the pieces. */
  lemma {:induction false} LinesOfJoinLines(ls: seq<string>)
    requires |ls| >= 1
    requires forall k :: 0 <= k < |ls| ==> '\n' !in ls[k]
    ensures Lines(JoinLines(ls)) == ls
    decreases |ls|
  {
    if |ls| > 1 {
      var rest := JoinLines(ls[1..]);
      var s := ls[0] + "\n" + rest;
      assert JoinLines(ls) == s;
      FirstNewlineAfterLine(ls[0], rest);
      assert s[..|ls[0]|] == ls[0];
      assert s[|ls[0]| + 1..] == rest;
      assert Lines(s) == [ls[0]] + Lines(rest);
      assert forall k :: 0 <= k < |ls[1..]| ==> '\n' !in ls[1..][k];
      LinesOfJoinLines(ls[1..]);
      assert ls == [ls[0]] + ls[1..];
    }
  }

  /** No run of characters free of newlines in `s` is longer than `n`:
      every line of `s` has at most `n` characters. */
  predicate LinesWithin(s: string, n: nat) {
    forall i, j :: 0 <= i <= j <= |s| && '\n' !in s[i..j] ==> j - i <= n
  }

  /** Every string of `ls` has at most `n` characters. */
  predicate AllWithin(ls: seq<string>, n: nat) {
    forall k :: 0 <= k < |ls| ==> |ls[k]| <= n
  }

  /** A text without newlines has its lines within `n` iff it is no longer than `n`. */
  lemma SingleLineWithin(x: string, n: nat)
    requires '\n' !in x
    ensures LinesWithin(x, n) <==> |x| <= n
  {
    if LinesWithin(x, n) {
      assert x[0..|x|] == x;
    }
  }

  /** A newline-free line followed by a newline and more text. */
  lemma LineThenRestWithin(a: string, b: string, n: nat)
    requires '\n' !in a
    ensures LinesWithin(a + "\n" + b, n) <==> |a| <= n && LinesWithin(b, n)
  {
    var s := a + "\n" + b;
    var off := |a| + 1;
    if LinesWithin(s, n) {
      assert s[0..|a|] == a;
      forall i, j | 0 <= i <= j <= |b| && '\n' !in b[i..j]
        ensures j - i <= n
      {
        SliceAfter(a + "\n", b, off + i, off + j);
      }
    }
    if |a| <= n && LinesWithin(b, n) {
      forall i, j | 0 <= i <= j <= |s|
        ensures '\n' !in s[i..j] ==> j - i <= n
      {
        if i >= off {
          SliceAfter(a + "\n", b, i, j);
        } else if j > |a| {
          assert s[|a|] == '\n';
          assert s[i..j][|a| - i] == s[|a|];
        }
      }
    }
  }

  /** A slice that starts after `x` lies in `y`. */
  lemma SliceAfter(x: string, y: string, i: nat, j: nat)
    requires |x| <= i <= j <= |x + y|
    ensures (x + y)[i..j] == y[i - |x|..j - |x|]
  {
  }

  /** The length check on the split pieces is the same as the check on the
      runs between newlines: the split-based rule and the run-based rule agree. */
  lemma {:induction false} LinesWithinIffAllWithin(s: string, n: nat)
    ensures AllWithin(Lines(s), n) <==> LinesWithin(s, n)
    decreases |s|
  {
    if '\n' !in s {
      SingleLineWithin(s, n);
      assert Lines(s) == [s] + [];
      AllWithinCons(s, [], n);
    } else {
      var i := FirstNewline(s);
      var a, b := s[..i], s[i + 1..];
      assert s == a + "\n" + b;
      LinesWithinIffAllWithin(b, n);
      LineThenRestWithin(a, b, n);
      assert Lines(s) == [a] + Lines(b);
      AllWithinCons(a, Lines(b), n);
    }
  }

  /** The first string and the rest are checked separately. */
  lemma AllWithinCons(a: string, rest: seq<string>, n: nat)
    ensures AllWithin([a] + rest, n) <==> |a| <= n && AllWithin(rest, n)
  {
    var ls := [a] + rest;
    if AllWithin(ls, n) {
      assert |a| == |ls[0]|;
      forall k | 0 <= k < |rest| ensures |rest[k]| <= n {
        assert rest[k] == ls[k + 1];
      }
    }
    if |a| <= n && AllWithin(rest, n) {
      forall k | 0 <= k < |ls| ensures |ls[k]| <= n {
        if k > 0 {
          assert ls[k] == rest[k - 1];
        }
      }
    }
  }

  /** A short text has its lines within the bound. */
  lemma ShortWithin(x: string, n: nat)
    requires |x| <= n
    ensures LinesWithin(x, n)
  {
  }

  /** A trailing newline adds no long line. */
  lemma WithinThenNewline(x: string, n: nat)
    requires LinesWithin(x, n)
    ensures LinesWithin(x + "\n", n)
  {
    var s := x + "\n";
    forall i, j | 0 <= i <= j <= |s|
      ensures '\n' !in s[i..j] ==> j - i <= n
    {
      if j < |s| {
        assert s[i..j] == x[i..j];
      } else if i < j {
        assert s[i..j][j - 1 - i] == '\n';
      }
    }
  }

  /** Two texts with short lines, the first ending at a line break, join into
      a text with short lines. */
  lemma WithinConcat(a: string, b: string, n: nat)
    requires LinesWithin(a, n) && LinesWithin(b, n)
    requires |a| == 0 || a[|a| - 1] == '\n'
    ensures LinesWithin(a + b, n)
  {
    var s := a + b;
    forall i, j | 0 <= i <= j <= |s|
      ensures '\n' !in s[i..j] ==> j - i <= n
    {
      if j <= |a| {
        assert s[i..j] == a[i..j];
      } else if i >= |a| {
        assert s[i..j] == b[i - |a|..j - |a|];
      } else {
        assert s[i..j][|a| - 1 - i] == '\n';
      }
    }
  }

  /** Python's `re.match(r'^<.+>$', s)`: `s` is `<`, one or more characters
      other than a newline, then `>`, optionally followed by one final newline
      (where `$` also matches). */
  predicate AngleForm(s: string) {
    var t := if |s| > 0 && s[|s| - 1] == '\n' then s[..|s| - 1] else s;
    |t| >= 3 && t[0] == '<' && t[|t| - 1] == '>' && '\n' !in t[1..|t| - 1]
  }

  /** Every text of the bracketed shape matches. */
  lemma AngleFormIntro(m: string, tail: string)
    requires |m| >= 1 && '\n' !in m
    requires tail == "" || tail == "\n"
    ensures AngleForm("<" + m + ">" + tail)
  {
    var s := "<" + m + ">" + tail;
    var t := "<" + m + ">";
    assert s == t + tail;
    if tail == "\n" {
      assert s[..|s| - 1] == t;
    }
    assert t[1..|t| - 1] == m;
  }

  /** Every matching text has the bracketed shape. */
  lemma AngleFormElim(s: string)
    requires AngleForm(s)
    ensures var tail := if s[|s| - 1] == '\n' then "\n" else "";
            var m := s[1..|s| - |tail| - 1];
            |m| >= 1 && '\n' !in m && s == "<" + m + ">" + tail
  {
  }

  /** A matching text starts with `<` and has no newline before its last character. */
  lemma AngleFormOneLine(s: string)
    requires AngleForm(s)
    ensures s[0] == '<'
    ensures forall i :: 0 <= i < |s| - 1 ==> s[i] != '\n'
  {
    var t := if s[|s| - 1] == '\n' then s[..|s| - 1] else s;
    forall i | 0 <= i < |s| - 1 ensures s[i] != '\n' {
      if 0 < i < |t| - 1 {
        assert s[i] == t[1..|t| - 1][i - 1];
      }
    }
  }

  /** A text followed by a newline matches only if the text alone matches. */
  lemma AngleFormDropNewline(x: string)
    requires AngleForm(x + "\n")
    ensures AngleForm(x)
  {
    assert (x + "\n")[..|x|] == x;
  }
}

=== FILE: unpack.dfy ===
/** The errors Python 2 raises when `key, args, kwargs = self._parse(data)`
    cannot unpack what the strategy returned, and the three patterns
    `Page.process` (shellpages/shellpages.py) matches with `re.match` to turn
    such an error into its own `parse method must return 3 values`. */
module Unpack {
  import opened Errors

  /** How many values a strategy may return when it does not return three. */
  type Arity = n: nat | n != 3

  /** `ValueError` from unpacking `count` values into three names: too few
      names the count (`value` in the singular for one), more than three does
      not. A count of three unpacks without error. */
  function CountError(count: nat): (e: PyError)
    requires count != 3
    ensures e.ValueError?
  {
    if count < 3 then
      ValueError(TooFewMessage(('0' as int + count) as char, if count == 1 then "" else "s"))
    else ValueError(TooManyText)
  }

  /** The fixed pieces of the messages and patterns. */
  const NeedMoreThan: string := "need more than "
  const ValueWord: string := " value"
  const ToUnpack: string := " to unpack"
  const TooManyText: string := "too many values to unpack"
  const NotIterableTail: string := "' object is not iterable"

  /** The lengths and first characters the proofs below rely on. */
  lemma PieceFacts()
    ensures |NeedMoreThan| == 15 && NeedMoreThan[0] == 'n'
    ensures |ValueWord| == 6 && |ToUnpack| >= 1 && ToUnpack[0] == ' '
    ensures |TooManyText| >= 1 && TooManyText[0] == 't'
    ensures |NotIterableTail| >= 1 && NotIterableTail[0] == '\''
  {
  }

  /** `need more than <digit> value<plural> to unpack`. */
  function TooFewMessage(digit: char, plural: string): string {
    NeedMoreThan + [digit] + ValueWord + plural + ToUnpack
  }

  /** `TypeError` from unpacking a value of type `typeName` that cannot be iterated. */
  function NotIterableError(typeName: string): (e: PyError)
    ensures e.TypeError?
  {
    TypeError("'" + (typeName + NotIterableTail))
  }

  /** Python's `\w` on byte strings, without the locale or unicode flags. */
  predicate IsWordChar(c: char) {
    'a' <= c <= 'z' || 'A' <= c <= 'Z' || '0' <= c <= '9' || c == '_'
  }

  /** The longest prefix of `s` made of word characters and dots. */
  function NameRun(s: string): (r: string)
    ensures r <= s
    ensures forall i :: 0 <= i < |r| ==> IsWordChar(r[i]) || r[i] == '.'
    ensures |r| < |s| ==> !IsWordChar(s[|r|]) && s[|r|] != '.'
    decreases |s|
  {
    if |s| > 0 && (IsWordChar(s[0]) || s[0] == '.') then [s[0]] + NameRun(s[1..]) else ""
  }

  /** `s` with its leading `s` characters dropped. */
  function DropEss(s: string): (r: string)
    ensures |r| <= |s| && r == s[|s| - |r|..]
    ensures forall i :: 0 <= i < |s| - |r| ==> s[i] == 's'
    ensures |r| > 0 ==> r[0] != 's'
    decreases |s|
  {
    if |s| > 0 && s[0] == 's' then DropEss(s[1..]) else s
  }

  /** `re.match(r"'[\w\.]*\w+' object is not iterable", s)`: no quote can be
      part of the name, so the name is the whole run of word characters and
      dots after the opening quote, and must end with a word character. */
  predicate NotIterableMatch(s: string) {
    |s| >= 1 && s[0] == '\'' &&
    var n := NameRun(s[1..]);
    |n| >= 1 && IsWordChar(n[|n| - 1]) && NotIterableTail <= s[1 + |n|..]
  }

  /** `re.match(r'need more than [12] values* to unpack', s)`. */
  predicate NotEnoughMatch(s: string) {
    |s| >= 22 && s[..15] == NeedMoreThan && (s[15] == '1' || s[15] == '2')
    && s[16..22] == ValueWord && ToUnpack <= DropEss(s[22..])
  }

  /** `re.match(r'too many values to unpack', s)`. */
  predicate TooManyMatch(s: string) {
    TooManyText <= s
  }

  /** Whether `process` recognises `e` as an unpacking failure. */
  predicate Recognised(e: PyError) {
    (e.TypeError? || e.ValueError?) &&
    (NotIterableMatch(e.message) || NotEnoughMatch(e.message) || TooManyMatch(e.message))
  }

  /** A name Python gives a type: word characters and dots, ending in a word character. */
  predicate IsTypeName(t: string) {
    |t| >= 1 && IsWordChar(t[|t| - 1]) && forall i :: 0 <= i < |t| ==> IsWordChar(t[i]) || t[i] == '.'
  }

  /** The run of name characters before a character that is none stops there. */
  lemma {:induction false} NameRunBefore(t: string, rest: string)
    requires forall i :: 0 <= i < |t| ==> IsWordChar(t[i]) || t[i] == '.'
    requires |rest| >= 1 && !IsWordChar(rest[0]) && rest[0] != '.'
    ensures NameRun(t + rest) == t
    decreases |t|
  {
    if |t| > 0 {
      assert (t + rest)[1..] == t[1..] + rest;
      NameRunBefore(t[1..], rest);
      assert t == [t[0]] + t[1..];
    }
  }

  /** After an opening quote, the pattern reads a run of name characters up
      to the quote that follows it. */
  lemma NotIterableOfQuoted(name: string, rest: string)
    requires forall i :: 0 <= i < |name| ==> IsWordChar(name[i]) || name[i] == '.'
    requires |rest| >= 1 && rest[0] == '\''
    ensures NotIterableMatch("'" + (name + rest))
        <==> |name| >= 1 && IsWordChar(name[|name| - 1]) && NotIterableTail <= rest
  {
    var s := "'" + (name + rest);
    assert s[1..] == name + rest;
    NameRunBefore(name, rest);
    assert s[1 + |name|..] == rest;
  }

  /** Text starting with a quote matches neither of the other two patterns. */
  lemma QuotedMatchesNoCount(s: string)
    requires |s| >= 1 && s[0] == '\''
    ensures !NotEnoughMatch(s) && !TooManyMatch(s)
  {
    PieceFacts();
    assert s[0] != NeedMoreThan[0];
    assert s[0] != TooManyText[0];
  }

  /** The run of name characters cannot pass a quote. */
  lemma RunStopsAtQuote(u: string, k: nat)
    requires k < |u| && u[k] == '\''
    ensures |NameRun(u)| <= k
  {
    var n := NameRun(u);
    assert forall i :: 0 <= i < |n| ==> u[i] != '\'' by {
      forall i | 0 <= i < |n| ensures u[i] != '\'' {
        assert n[i] == u[i];
      }
    }
  }

  /** What a match says about the run after the opening quote. */
  lemma MatchedRun(s: string)
    requires NotIterableMatch(s)
    ensures var n := NameRun(s[1..]);
            1 + |n| < |s| && s[1 + |n|] == '\'' && |n| >= 1 && IsWordChar(n[|n| - 1])
  {
    PieceFacts();
    var n := NameRun(s[1..]);
    assert s[1 + |n|..][0] == NotIterableTail[0];
  }

  /** A run that stops at a quote stops at the first quote. */
  lemma RunEndsAtFirstQuote(u: string, k: nat)
    requires k < |u| && u[k] == '\'' && forall i :: 0 <= i < k ==> u[i] != '\''
    requires |NameRun(u)| < |u| && u[|NameRun(u)|] == '\''
    ensures NameRun(u) == u[..k]
  {
    RunStopsAtQuote(u, k);
  }

  /** A name with no quote, followed by a quote. */
  lemma FirstQuoteAfter(t: string, rest: string)
    requires '\'' !in t && |rest| >= 1 && rest[0] == '\''
    ensures (t + rest)[|t|] == '\'' && (t + rest)[..|t|] == t
    ensures forall i :: 0 <= i < |t| ==> (t + rest)[i] != '\''
  {
    assert forall i :: 0 <= i < |t| ==> (t + rest)[i] == t[i];
  }

  /** A matched name is the whole name between the quotes: the run cannot
      stop inside a name that holds no quote, nor run past the quote after it. */
  lemma MatchedQuotedName(t: string, rest: string)
    requires '\'' !in t && |rest| >= 1 && rest[0] == '\''
    requires NotIterableMatch("'" + (t + rest))
    ensures IsTypeName(t)
  {
    var s, u := "'" + (t + rest), t + rest;
    MatchedRun(s);
    assert s[1..] == u;
    FirstQuoteAfter(t, rest);
    RunEndsAtFirstQuote(u, |t|);
  }

  /** A type name the pattern accepts has the form Python gives type names. */
  lemma MatchedNameIsTypeName(typeName: string)
    requires '\'' !in typeName
    requires NotIterableMatch(NotIterableError(typeName).message)
    ensures IsTypeName(typeName)
  {
    PieceFacts();
    MatchedQuotedName(typeName, NotIterableTail);
  }

  /** A type that cannot be iterated is recognised exactly when its name is
      one Python would give a type (names with a quote in them aside). */
  lemma NotIterableRecognised(typeName: string)
    requires '\'' !in typeName
    ensures Recognised(NotIterableError(typeName)) <==> IsTypeName(typeName)
  {
    var s := NotIterableError(typeName).message;
    PieceFacts();
    QuotedMatchesNoCount(s);
    if IsTypeName(typeName) {
      NotIterableOfQuoted(typeName, NotIterableTail);
    } else if NotIterableMatch(s) {
      MatchedNameIsTypeName(typeName);
    }
  }

  /** A too-few message matches exactly when its count is 1 or 2. */
  lemma NotEnoughOfMessage(digit: char, plural: string)
    requires plural == "" || plural == "s"
    ensures NotEnoughMatch(TooFewMessage(digit, plural)) <==> digit == '1' || digit == '2'
  {
    TooFewParts(digit, plural);
    DropEssOfTail(plural);
  }

  /** Where the pattern's pieces sit in a too-few message. */
  lemma TooFewParts(digit: char, plural: string)
    ensures var s := TooFewMessage(digit, plural);
            |s| >= 22 && s[..15] == NeedMoreThan && s[15] == digit
            && s[16..22] == ValueWord && s[22..] == plural + ToUnpack
  {
    PieceFacts();
    var s := TooFewMessage(digit, plural);
    var h := NeedMoreThan + [digit] + ValueWord;
    assert s == h + (plural + ToUnpack);
    assert s[..22] == h && s[22..] == plural + ToUnpack;
    assert h[..15] == NeedMoreThan && h[15] == digit && h[16..22] == ValueWord;
  }

  /** The plural ending is dropped and ` to unpack` is left. */
  lemma DropEssOfTail(plural: string)
    requires plural == "" || plural == "s"
    ensures DropEss(plural + ToUnpack) == ToUnpack
  {
    PieceFacts();
    if plural == "s" {
      assert (plural + ToUnpack)[1..] == ToUnpack;
    }
  }

  /** The three too-few messages: only an empty result escapes the pattern. */
  lemma NotEnoughOfCount(count: nat)
    requires count < 3
    ensures NotEnoughMatch(CountError(count).message) <==> count != 0
  {
    NotEnoughOfMessage(('0' as int + count) as char, if count == 1 then "" else "s");
  }

  /** Unpacking a wrong number of values is recognised exactly when the
      result was not empty. */
  lemma CountRecognised(count: nat)
    requires count != 3
    ensures Recognised(CountError(count)) <==> count != 0
  {
    var s := CountError(count).message;
    if count < 3 {
      NotEnoughOfCount(count);
      PieceFacts();
      assert s[0] == NeedMoreThan[0];
      assert s[0] != TooManyText[0];
    } else {
      assert TooManyMatch(s);
    }
  }
}
